=== FILE: README.md ===
# fondue scaffolding core, modelled in Dafny

fondue scaffolds HDL cores and projects from packaged Jinja templates. This
project models the decision and transformation logic behind that:

- **Destination validation.** Core mode accepts an absent path or an empty directory. Project mode accepts an absent path or a directory without an entry called `name`.
- **Template selection.** A template repository selects the names that start with a key, as a raw prefix.
- **Template layering for projects.** Up to four layers are applied in a fixed order. A later layer overrides an earlier one key by key, and the overridden template becomes the new template's parent.
- **Output naming.**
  - Projects: the last extension is dropped, then every `name` is replaced by the artifact name.
  - Cores: the base name is taken, the extension is dropped, then every occurrence of the source key is replaced by the core name.
- **The staged core generator.** `run` validates, renders every template of `[sim_tool, 'default']` into a private staging area, re-validates, then copies the staging area into the destination.
- **The earlier core generator.** `init` of `fondue/core.py` creates the directory and renders `<name>.ffc` and `<name>.v` straight into it.

Modules, one per concern:

| file | module | what it holds |
|---|---|---|
| `wrappers.dfy` | `Wrappers` | `Option`, `Result`, `Outcome` |
| `pystr.dfy` | `PyStr` | `str.startswith`, `str.replace`, `str.rfind`, `posixpath.splitext`, `basename`, `join`; `Split`/`Join` as the reference for `str.replace` |
| `filesystem.dfy` | `FileSystem` | a filesystem as `map<Path, Entry>` (listings read off the keys), `makedirs`, overlaying files into a directory |
| `templaterepo.dfy` | `TemplateRepo` | `get_templates` and the result of asking the template engine to render |
| `validation.dfy` | `Validation` | the two `_validate_directory` functions |
| `layers.dfy` | `Layers` | templates with a parent held by value, `_update_templates`, merging a sequence of layers |
| `projectinit.dfy` | `ProjectInit` | `_gather_templates`, output names and render requests of `_render_templates` |
| `coreinit.dfy` | `CoreInit` | `_build_templates`, staging, `_commit_directory`, `run` |
| `corelegacy.dfy` | `CoreLegacy` | `init` of `fondue/core.py` |

The model stands in for several external collaborators:

- **Template engine.** It is a function parameter. In core mode it maps a template name and the options to `Rendered(text)`, `NotLoadable` or `Failed`. In project mode the model stops at the render request: where to write, which template, which options, which base.
- **Destination string.** The host reads it as a path after `~` expansion against the home and current directories. That reading is a parameter `locate`. `Destination` records whether expansion applies.
- **Template storage.** In core mode it is a listing of template names. In project mode it is a function from (repository prefix, key) to the templates listed under the key.
- **Staging directory.** Rendering into the temporary directory is modelled as building a map from file name to text. The commit overlays that map onto the destination, less the names distutils' `copy_tree` passes over.
- **Errors.** Each failure is a `Failure` value: `Conflict(verdict)`, `CreateFailed`, `LoadFailed`, `WriteFailed`, `RenderFailed` or `CopyFailed`. Logging, `exit(1)` and the raised exceptions all collapse into that value. A failed step leaves the filesystem exactly as the source leaves it, except as listed under "## Left out" (the partial copy of `CoreInit.CommitHere`, the out-of-staging writes of `CoreInit.RenderFile`).

Some behaviour of the code is easy to misread; the model follows the code:

- `get_templates` filters with a raw `startswith(key)`. It neither requires `key + "/"` nor strips the prefix. So key `default` also selects `default_x/...`.
- In core `run` the `default` source is rendered last. On a file-name collision the default template's output is what reaches the destination. The tool template's content is not merged over it.
- The core source list drops only `None`. A `run` called with `sim_tool == ''` keeps it as a source, whose empty prefix selects every template; the command line cannot produce that, because `--sim-tool` only accepts `verilator` (`fondue/core/init.py:34-36`). Project mode tests truthiness instead.
- An empty destination string (empty core name, no non-empty `--directory`) reads two ways. Core `run` finds nothing at `''`, so validation passes, and `copy_tree` then copies into the current directory, replacing files of the same name there. The earlier `init` calls `os.makedirs('')`, which raises an error it does not catch, so nothing is written.
- distutils' `copy_tree` passes over every name starting with `.nfs`. A core named `.nfsx` stages `.nfsx.ffc` and `.nfsx.v`; `run` then succeeds and leaves the destination without either file.
- `init` of `fondue/core.py` is not atomic. The directory is created before any template is loaded. A render failure leaves the opened output file empty, and stops before the second file.

## Model

| member | source | states |
|---|---|---|
| PyStr.InterleaveLayout | fondue/core/init.py:79 | `str.replace` with an empty pattern: copy `i` of the replacement starts at slot `i` for every `i` up to the length of the string, character `i` of the string follows copy `i`, and the result ends with the last copy |
| PyStr.SlotIsProduct | fondue/core/init.py:79 | the slot of copy `i` is `i * (len(r) + 1)` |
| PyStr.ReplaceAll | fondue/project/init.py:57 | replacing every occurrence of a non-empty pattern equals splitting on the pattern and joining the pieces with the replacement |
| PyStr.SplitJoinRoundTrip | fondue/project/init.py:57 | joining the split pieces with the separator gives back the original string |
| PyStr.SplitPiecesFree | fondue/project/init.py:57 | no split piece contains the pattern, so the single left-to-right pass leaves no occurrence behind |
| PyStr.ReplaceAllIdentity | fondue/core/init.py:79 | replacing any pattern, empty included, by itself leaves every string unchanged |
| PyStr.ReplaceAllAbsent | fondue/core/init.py:79 | a string with no occurrence of a non-empty pattern is returned unchanged |
| PyStr.ReplaceAllKeepsOut | fondue/core/init.py:79 | a character in neither the string nor the replacement does not appear in the result |
| PyStr.RFind | fondue/project/init.py:56 | `rfind` returns -1 or an index holding the character, with no later index holding it |
| PyStr.SplitExt | fondue/project/init.py:56 | root and extension concatenate back to the path |
| PyStr.SplitExtShape | fondue/project/init.py:56 | a non-empty extension is a dot followed by neither dots nor separators |
| PyStr.SplitExtHasExtension | fondue/project/init.py:56 | an extension is split off exactly when the last path component has a dot preceded by some non-dot character |
| PyStr.Basename | fondue/core/init.py:78 | the base name is the longest suffix of the path without a separator |
| TemplateRepo.GetTemplates | fondue/templates.py:13-16 | a name is selected exactly when it is listed and starts with the key; no name is selected more often than it is listed |
| TemplateRepo.GetTemplatesAppend | fondue/templates.py:13-16 | selection keeps listing order: the selection of a concatenation is the concatenation of the selections |
| TemplateRepo.GetTemplatesEmptyKey | fondue/templates.py:14 | the empty key selects the whole listing |
| TemplateRepo.GetTemplatesNoSeparatorBoundary | fondue/templates.py:14 | key `default` also selects a listed `default_x/...` name: the prefix has no separator boundary |
| FileSystem.Listdir | fondue/core/init.py:61 | a name is listed in a directory exactly when the directory holds an entry under that name |
| FileSystem.MakeDirs | fondue/core.py:17 | every prefix of the path becomes a directory, existing entries are kept, and only prefixes of the path are added |
| FileSystem.MakeDirsWellFormed | fondue/core.py:17 | creating the missing directories keeps a well-formed filesystem well-formed |
| FileSystem.Overlay | fondue/core/init.py:97 | copying files into a directory writes each one and leaves every entry outside those names unchanged |
| FileSystem.OverlayWellFormed | fondue/core/init.py:97 | copying new files into a directory keeps the filesystem well-formed and extends the directory listing by exactly the copied names |
| FileSystem.OverlayIntoEmpty | fondue/core/init.py:97 | copying files into an empty directory keeps the filesystem well-formed, lists exactly the copied names there and changes no existing entry |
| Validation.ValidateCore | fondue/core/init.py:44-70 | accepted exactly when absent or an empty directory; not a directory exactly for a file; not empty exactly for a directory with an entry |
| Validation.ValidateProject | fondue/project/init.py:20-45 | accepted exactly when absent or a directory without entry `name`; not a directory for a file; a name collision for a directory holding `name` |
| Validation.CoreStricterThanProject | fondue/project/init.py:27-45 | whatever core mode accepts, project mode accepts for every name |
| Validation.ProjectAcceptsUnrelatedEntries | fondue/project/init.py:35-45 | a non-empty directory without `name` is accepted in project mode and refused as not empty in core mode |
| Layers.UpdateTemplates | fondue/project/init.py:66-71 | keys are the union; an overriding template gets the replaced one as parent; a new key keeps its template; a key only in the original is unchanged |
| Layers.ChainTail | fondue/project/init.py:67-70 | a template has a parent exactly when its chain continues, and the parent's chain is the rest of it |
| Layers.Acyclic | fondue/project/init.py:66-71 | every ancestor has a strictly shorter chain, so no template is its own ancestor |
| Layers.MergeAllKeys | fondue/project/init.py:66-71 | after merging, a key is present exactly when some layer defines it |
| Layers.MergeAllWinner | fondue/project/init.py:66-71 | the merged template for a key is the one from the last layer defining the key |
| Layers.MergeAllChain | fondue/project/init.py:66-71 | for fresh layers, the merged parent chain lists every id the layers gave the key, newest first, losing none |
| Layers.MergeAllDepth | fondue/project/init.py:66-71 | a merged template has at most one parent link per earlier layer |
| ProjectInit.Load | fondue/project/init.py:79 | a freshly listed layer has the listed keys and ids and no parents |
| ProjectInit.AppliedLayers | fondue/project/init.py:74-97 | one to four fresh layers, the default one first; only the default when neither option is set; all four only when both are set |
| ProjectInit.AppliedLayersCases | fondue/project/init.py:74-97 | for each combination of the sim-tool and template options, the exact layers applied and their order |
| ProjectInit.GatherTemplates | fondue/project/init.py:74-97 | the step-by-step gathering equals the in-order merge of the applied layers: default, sim tool, top-level default, top-level sim tool |
| ProjectInit.GatherDefaultOnly | fondue/project/init.py:76-79 | with neither a sim tool nor a top-level template the result is exactly the default layer |
| ProjectInit.GatherOverrides | fondue/project/init.py:74-97 | each gathered template comes from the last applied layer with its key; its chain is that key's history reversed and has at most three links |
| ProjectInit.RenderJobs | fondue/project/init.py:48-63 | one render per template, with unchanged caller options, the template's parent as base, and output at directory joined with the derived name |
| ProjectInit.RenderBaseIsOverridden | fondue/project/init.py:51-54 | a render gets a base exactly when an earlier layer had the key, and the base's chain is the earlier history |
| ProjectInit.OutputName | fondue/project/init.py:56-57 | the output name is the template path's root split at every `name` and joined with the artifact name; a root without `name` is kept as it is |
| ProjectInit.OutputNameExample | fondue/project/init.py:56-57 | `name.v.j2` for artifact `widget` is written as `widget.v` |
| ProjectInit.OutputNameWithoutPlaceholder | fondue/project/init.py:56-57 | a root without `name` is kept, and root plus extension gives the template path back |
| CoreInit.Destination | fondue/core/init.py:105-108 | the expanded `--directory` when it is non-empty, otherwise the core name as given |
| CoreInit.EmptyDestinationCases | fondue/core/init.py:105-108 | the destination string is empty exactly when the core name is empty and no non-empty `--directory` is given |
| CoreInit.RenderFile | fondue/templates.py:18-21 | a render succeeds exactly when the template renders and the output name can be opened; a load failure is reported first, an open failure next, a render failure only for a loadable template with an openable name |
| CoreInit.Sources | fondue/core/init.py:113-114 | `default` is always present and last; the sim tool comes first exactly when given |
| CoreInit.FileNameForStaysInside | fondue/core/init.py:77-79 | with a core name free of separators, no output name holds a separator |
| CoreInit.DefaultVerilogFileName | fondue/core/init.py:77-79 | `default.v.j2` from source `default` is written as the core name followed by `.v`, for every core name |
| CoreInit.FileNameForExample | fondue/core/init.py:77-79 | `default.v.j2` from source `default` for core `widget` is written as `widget.v` |
| CoreInit.NfsCoreNameExample | fondue/core/init.py:77-79 | for core `.nfsx`, `default.v.j2` is written as `.nfsx.v`, a name the commit's copy passes over |
| CoreInit.Entries | fondue/core/init.py:76-80 | one entry per selected name, in order, keeping the template name verbatim with its derived file name |
| CoreInit.BuildTemplatesAppend | fondue/core/init.py:73-81 | the entries of concatenated source lists are the concatenated entries, in source order |
| CoreInit.BuildTemplates | fondue/core/init.py:73-81 | the number of entries is the sum of the selection sizes |
| CoreInit.BuildTemplatesMembers | fondue/core/init.py:73-81 | an entry is built exactly when some source selects its template name, and its file name derives from that name and source |
| CoreInit.Stage | fondue/core/init.py:84-90 | staging succeeds exactly when every entry renders, and then holds one file per distinct file name; a failure is a load, open or render failure |
| CoreInit.StageLastWriterWins | fondue/core/init.py:84-90 | a staged file holds the rendering of the last entry writing that name |
| CoreInit.Copied | fondue/core/init.py:97 | the part of the staging area the copy takes: exactly the staged names not starting with `.nfs`, with their staged text |
| CoreInit.Commit | fondue/core/init.py:93-101 | re-validation failure copies nothing and reports the conflict; success is exactly acceptance with a creatable path, and every staged file not named `.nfs...` is copied |
| CoreInit.CommitPopulates | fondue/core/init.py:93-101 | a successful commit keeps the filesystem well-formed, changes no existing entry, and the destination lists exactly the staged names not starting with `.nfs` |
| CoreInit.CommitTarget | fondue/core/init.py:93-101 | a destination the re-validation accepts becomes an empty directory of a still well-formed filesystem |
| CoreInit.CopyTargetInjective | fondue/core/init.py:97 | two staged names copied into the same directory never land on the same path |
| CoreInit.Copies | fondue/core/init.py:97 | copying a set of files into a directory writes one file per name, holding its text, at the place `copy_file` chooses, and nothing else |
| CoreInit.CommitHere | fondue/core/init.py:93-101 | with an empty destination string, validation passes whatever is there; the commit succeeds exactly when the current directory is a directory and no copy lands on a directory; it writes every staged file not named `.nfs...` and changes an existing entry only where such a copy lands; a failure changes nothing |
| CoreInit.CopiesWellFormed | fondue/core/init.py:97 | copies into a directory, none of them onto a directory, keep the filesystem well-formed |
| CoreInit.CommitHereWellFormed | fondue/core/init.py:93-101 | a successful commit into the current directory keeps the filesystem well-formed |
| CoreInit.CommitHereStaged | fondue/core/init.py:93-101 | after a commit into the current directory, each staged name's copy, `.nfs` names excepted, holds the last writer's rendering, and existing entries change only where such a copy lands |
| CoreInit.CommitStaged | fondue/core/init.py:93-101 | after a commit the destination lists exactly the entries' file names not starting with `.nfs`, each holding the last writer's rendering |
| CoreInit.Run | fondue/core/init.py:104-119 | any failure leaves the filesystem unchanged; a refused non-empty destination is reported before rendering; success is exactly acceptance, a creatable path and full staging, followed by the commit; an empty destination is never refused, and succeeds exactly when staging and the copy into the current directory succeed |
| CoreInit.RunProducesPlannedFiles | fondue/core/init.py:104-119 | a successful run keeps the filesystem well-formed and writes each planned name not starting with `.nfs` with its last writer's rendering; with a non-empty destination the destination lists exactly those names, holds none of the `.nfs` ones, and no existing entry changes; with an empty one, existing entries change only where such a file lands in the current directory |
| CoreInit.RunWritesLastWriter | fondue/core/init.py:115-119 | on success, the last plan entry writing a name not starting with `.nfs` decides the content of that name's output file |
| CoreInit.Plan | fondue/core/init.py:113-115 | the plan is the sim-tool source's entries, when a sim tool is given, followed by the `default` source's entries |
| CoreInit.BuildTemplatesLastSource | fondue/core/init.py:75-81 | the entries of a source list are those of all but the last source followed by those of the last source |
| CoreInit.DefaultEntryInPlan | fondue/core/init.py:113-115 | a `default` entry that is the last writer among the defaults is the last writer of the whole plan |
| CoreInit.RunDefaultWins | fondue/core/init.py:113-119 | where a sim-tool and a default template produce the same name, not a `.nfs` one, the default rendering reaches the destination |
| CoreLegacy.Prepare | fondue/core.py:16-26 | a refused destination stops `init` with that conflict; an absent destination is created unless a file stands on its path; existing entries are kept |
| CoreLegacy.PreparedIsEmpty | fondue/core.py:16-26 | on a well-formed filesystem the prepared destination is an empty directory |
| CoreLegacy.WriteRendered | fondue/utils.py:12-14 | a load failure comes first and writes nothing; then an open failure (parent missing or not a directory, a name that is not a single component, a directory in the way) writes nothing; a render failure leaves the opened file empty; success writes the rendered text |
| CoreLegacy.Init | fondue/core.py:10-31 | an empty destination string fails to be created and writes nothing; a refused destination fails with the filesystem unchanged; success is exactly a non-empty destination, acceptance, a creatable path, a separator-free name and both renders succeeding |
| CoreLegacy.InitCreatesExactlyTwoFiles | fondue/core.py:28-31 | on success the destination holds exactly `<name>.ffc` and `<name>.v` with the two renderings, and the filesystem stays well-formed |
| CoreLegacy.InitAddsOnlyDestination | fondue/core.py:16-31 | success changes no existing entry and adds only the directories down to the destination and the two files |
| CoreLegacy.InitWrites | fondue/core.py:28-31 | a successful `init` is exactly two writes, of the two renderings, into the prepared destination, under two distinct names |
| CoreLegacy.WriteFileWellFormed | fondue/core.py:28-31 | writing a new file into a directory keeps the filesystem well-formed and adds exactly that name to the listing |
| CoreLegacy.InitNotAtomic | fondue/core.py:16-31 | when the destination is non-empty and absent and the first render fails, the destination is left created and holding only an empty `<name>.ffc` |
| CoreLegacy.NameComponents | fondue/core.py:28-30 | both output names are single components exactly when the core name has no separator |

## Left out

- Template rendering (Jinja2 loading, environment setup, `base` inheritance) is a parameter, not a model. The `fondue/utils.py` and `fondue/templates.py` environments are not modelled.
- Real filesystem calls are modelled on a map: `exists`, `isdir`, `listdir`, `makedirs`, `open`, the temporary directory and `copy_tree`. Symbolic links, permissions and a full disk are out of scope. `copy_tree` is an overlay of the staged files whose names do not start with `.nfs`. Its failures are a file standing on the destination path and, when copying into the current directory, a directory standing where a copy goes.
- `os.path.expanduser` and the current directory become the `locate` parameter; `locate(Here)` is the current directory.
- The race window between re-validation and copy is external concurrency. Commit is one step that reads the filesystem at commit time, so a change between `run`'s first check and the commit is modelled by calling `Commit` on the changed filesystem.
- Error message text, `EEXIST` error numbers, exception types, logging and `exit(1)` are reduced to `Failure` values.
- Project `run` is not modelled, because `fondue/project/init.py:128` calls the two-argument validator with one argument. Its validator and template gathering are modelled.
- Project rendering is modelled up to the render request. The actual writes are not modelled. Nor is the order in which two templates producing the same output path would overwrite each other, which depends on dictionary order.
- Project templates are abstract records `Template(id, parent)`. The `.parent`, `.set_parent`, `.repo` and `base=` the code relies on do not exist on the repository class.
- CoreInit.RenderFile: a core-mode output name that is not a single path component fails to open, although Python could open some such names when the intermediate directories exist. An absolute core name is not reinterpreted by `os.path.join`.
- CoreInit.Run: a `--directory` ending in a separator whose stem is a file (`f/`) is refused at validation as not a directory, because `locate` reads it as the path of `f`. Python's `exists('f/')` is false, so the code renders every template first and fails only in `copy_tree`. The filesystem is unchanged either way; the reported failure kind differs, and a render failure would be reported instead of it.
- CoreInit.CommitHere: a failed copy into the current directory leaves the filesystem unchanged. `copy_tree` copies in `os.listdir` order, so the files copied before the failing one stay behind; that order is not modelled.
- CoreLegacy.WriteRendered: the same restriction applies to `fondue/core.py`; a name with a separator is a write failure there too.
- PyStr.PathJoin is stated without a contract: it is the POSIX two-argument join used to build project output paths.
- Command-line parsing, command discovery, logging colours and packaging (`fondue/main.py`, `fondue/core/__init__.py`, `fondue/project/__init__.py`, `fondue/logging.py`, `setup.py`) are plumbing.
- The tests in `tests/core/test_init.py` expect `init` of `fondue/core.py` to raise `FileExistsError`, while the code exits. Error kinds are modelled, so this difference is not represented.

=== FILE: coreinit.dfy ===
/**
  Core generation, `fondue/core/init.py`: choose the destination, validate
  it, list the templates of the chosen sources, render every one of them
  into a private staging area, then re-validate the destination and copy the
  staging area into it.  The template engine is a parameter (`Renderer`); so
  is the host's reading of a destination string as a path (`Locate`).
*/
module CoreInit {
  import opened Wrappers
  import opened PyStr
  import opened FileSystem
  import opened TemplateRepo
  import opened Validation

  /** The options `core init` receives; `name` is a required argument. */
  datatype CoreArgs = CoreArgs(
    name: string,
    vendor: Option<string>,
    library: Option<string>,
    version: Option<string>,
    simTool: Option<string>,
    directory: Option<string>)

  /** The destination string, and whether `~` expansion was applied to it. */
  datatype DestSpec = Expanded(path: string) | AsGiven(path: string)

  /** The host's reading of a destination string as a path (home directory, current directory). */
  type Locate = DestSpec -> Path

  /** Renders a named template with the given options. */
  type Renderer = (string, CoreArgs) -> Rendering

  /** The `--directory` option after `~` expansion when it is non-empty, else the core name. */
  function Destination(args: CoreArgs): (d: DestSpec)
    ensures d.Expanded? <==> args.directory.Some? && args.directory.value != []
    ensures d.Expanded? ==> d.path == args.directory.value
    ensures d.AsGiven? ==> d.path == args.name
  {
    if args.directory.Some? && args.directory.value != [] then Expanded(args.directory.value)
    else AsGiven(args.name)
  }

  /**
    The destination string is empty: the core name is empty and no
    non-empty `--directory` is given.  Python reads `''` two ways: `exists`
    finds nothing there, while copying into it writes into the current
    directory.
  */
  predicate EmptyDestination(args: CoreArgs)
  {
    Destination(args).path == []
  }

  lemma EmptyDestinationCases(args: CoreArgs)
    ensures EmptyDestination(args) <==> args.name == [] && (args.directory.None? || args.directory.value == [])
  {
  }

  /** The string `.`, which the host reads as the current directory. */
  const Here: DestSpec := AsGiven(".")

  /** Why an operation failed. */
  datatype Failure =
    | Conflict(reason: Verdict)    // the destination validator refused
    | CreateFailed                 // the destination directory could not be created
    | LoadFailed(template: string) // the template engine could not load the template
    | WriteFailed(file: string)    // the output file name cannot be opened for writing
    | RenderFailed(template: string) // rendering raised after the output file was opened
    | CopyFailed                   // copying the staging area into the destination failed

  /** What an operation reports, and the filesystem it leaves behind. */
  datatype Effect = Effect(status: Outcome<Failure>, fs: FS)

  /**
    One `render_template` call for output `fileName`: the template is loaded,
    the output file is opened, and only then is the template rendered.
  */
  function RenderFile(rendering: Rendering, templateName: string, fileName: string): (r: Result<string, Failure>)
    ensures r.Success? <==> rendering.Rendered? && IsComponent(fileName)
    ensures r.Success? ==> Rendered(r.value) == rendering
    ensures rendering.NotLoadable? ==> r == Failure(LoadFailed(templateName))
    ensures !rendering.NotLoadable? && !IsComponent(fileName) ==> r == Failure(WriteFailed(fileName))
    ensures rendering.Failed? && IsComponent(fileName) ==> r == Failure(RenderFailed(templateName))
  {
    if rendering.NotLoadable? then Failure(LoadFailed(templateName))
    else if !IsComponent(fileName) then Failure(WriteFailed(fileName))
    else if rendering.Failed? then Failure(RenderFailed(templateName))
    else Success(rendering.text)
  }

  /** `[sim_tool, 'default']` with `None` dropped. */
  function Sources(simTool: Option<string>): (sources: seq<string>)
    ensures 1 <= |sources| <= 2 && sources[|sources| - 1] == "default"
    ensures |sources| == 2 <==> simTool.Some?
    ensures simTool.Some? ==> sources[0] == simTool.value
  {
    if simTool.Some? then [simTool.value, "default"] else ["default"]
  }

  /** The `Template` record of the source: which template renders to which file. */
  datatype TemplateFile = TemplateFile(templateName: string, fileName: string)

  /** Base name, last extension removed, every occurrence of the source key replaced by the core name. */
  function FileNameFor(templateName: string, source: string, coreName: string): string
  {
    ReplaceAll(SplitExt(Basename(templateName)).0, source, coreName)
  }

  /** With a core name free of separators, every output name is a name inside the staging area. */
  lemma FileNameForStaysInside(templateName: string, source: string, coreName: string)
    requires '/' !in coreName
    ensures '/' !in FileNameFor(templateName, source, coreName)
  {
    var root := SplitExt(Basename(templateName)).0;
    assert forall k :: 0 <= k < |root| ==> root[k] == Basename(templateName)[k];
    ReplaceAllKeepsOut(root, source, coreName, '/');
  }

  /** `default.v.j2` of source `default` is written as the core name followed by `.v`. */
  lemma DefaultVerilogFileName(coreName: string)
    ensures FileNameFor("default.v.j2", "default", coreName) == coreName + ".v"
  {
    var t := "default.v.j2";
    assert Basename(t) == t by {
      assert forall k :: 0 <= k < |t| ==> t[k] != '/';
    }
    assert SplitExt(t).0 == "default.v" by {
      assert forall k :: 0 <= k < |t| ==> t[k] != '/';
      assert t[9] == '.' && t[10] != '.' && t[11] != '.';
      assert RFind(t, '.') == 9;
      assert t[0] != '.';
    }
    DefaultKeyReplaced(coreName);
  }

  lemma DefaultKeyReplaced(coreName: string)
    ensures ReplaceAll("default.v", "default", coreName) == coreName + ".v"
  {
    assert StartsWith("default.v", "default");
    assert "default.v"[7..] == ".v";
    assert !StartsWith(".v", "default");
    assert ReplaceAll("v", "default", coreName) == "v";
  }

  /** The source key example: `default.v.j2` of source `default` for core `widget` is written as `widget.v`. */
  lemma FileNameForExample()
    ensures FileNameFor("default.v.j2", "default", "widget") == "widget.v"
  {
    DefaultVerilogFileName("widget");
  }

  /**
    A core named `.nfsx` gets the output name `.nfsx.v` from `default.v.j2`:
    a `.nfs` name, which the commit's `copy_tree` passes over.
  */
  lemma NfsCoreNameExample()
    ensures FileNameFor("default.v.j2", "default", ".nfsx") == ".nfsx.v"
    ensures NfsName(".nfsx.v")
  {
    DefaultVerilogFileName(".nfsx");
    assert ".nfsx.v"[..4] == ".nfs";
  }

  function Entries(names: seq<string>, source: string, coreName: string): (es: seq<TemplateFile>)
    ensures |es| == |names|
    ensures forall i :: 0 <= i < |es| ==> es[i] == TemplateFile(names[i], FileNameFor(names[i], source, coreName))
  {
    seq(|names|, i requires 0 <= i < |names| => TemplateFile(names[i], FileNameFor(names[i], source, coreName)))
  }

  /** `_build_templates`: the entries of every source, in source order. */
  function BuildTemplates(listing: seq<string>, sources: seq<string>, coreName: string): (es: seq<TemplateFile>)
    ensures |es| == Selected(listing, sources)
  {
    if sources == [] then []
    else Entries(GetTemplates(listing, sources[0]), sources[0], coreName) + BuildTemplates(listing, sources[1..], coreName)
  }

  /** How many names the sources select from the listing, summed over the sources. */
  function Selected(listing: seq<string>, sources: seq<string>): nat
  {
    if sources == [] then 0 else |GetTemplates(listing, sources[0])| + Selected(listing, sources[1..])
  }

  /** The entries of a source list are those of its parts, in the same order. */
  lemma {:induction false} BuildTemplatesAppend(listing: seq<string>, a: seq<string>, b: seq<string>, coreName: string)
    ensures BuildTemplates(listing, a + b, coreName) == BuildTemplates(listing, a, coreName) + BuildTemplates(listing, b, coreName)
  {
    if a == [] {
      assert a + b == b;
    } else {
      var ab := a + b;
      assert ab[0] == a[0] && ab[1..] == a[1..] + b;
      BuildTemplatesAppend(listing, a[1..], b, coreName);
    }
  }

  /**
    An entry is built exactly when some source selects its template name,
    and its file name is then derived from that name and that source.
  */
  lemma {:induction false} BuildTemplatesMembers(listing: seq<string>, sources: seq<string>, coreName: string, e: TemplateFile)
    ensures e in BuildTemplates(listing, sources, coreName) <==>
            exists s :: s in sources && e.templateName in GetTemplates(listing, s) &&
                        StartsWith(e.templateName, s) && e.fileName == FileNameFor(e.templateName, s, coreName)
  {
    if sources != [] {
      var s0 := sources[0];
      var es := Entries(GetTemplates(listing, s0), s0, coreName);
      BuildTemplatesMembers(listing, sources[1..], coreName, e);
      if e in es {
        var i :| 0 <= i < |es| && es[i] == e;
        assert s0 in sources;
      }
      if e.templateName in GetTemplates(listing, s0) && e.fileName == FileNameFor(e.templateName, s0, coreName) {
        var names := GetTemplates(listing, s0);
        var i :| 0 <= i < |names| && names[i] == e.templateName;
        assert es[i] == e;
      }
      forall s | s in sources[1..]
        ensures s in sources
      {
      }
      forall s | s in sources && s != s0
        ensures s in sources[1..]
      {
      }
    }
  }

  /** The entries `run` renders: the sim-tool source first when given, then `default`. */
  function Plan(listing: seq<string>, args: CoreArgs): (plan: seq<TemplateFile>)
    ensures args.simTool.None? ==> plan == BuildTemplates(listing, ["default"], args.name)
    ensures args.simTool.Some? ==>
              plan == BuildTemplates(listing, [args.simTool.value], args.name) + BuildTemplates(listing, ["default"], args.name)
  {
    var sources := Sources(args.simTool);
    BuildTemplatesLastSource(listing, sources, args.name);
    assert sources[..|sources| - 1] == (if args.simTool.Some? then [args.simTool.value] else []);
    assert [sources[|sources| - 1]] == ["default"];
    BuildTemplates(listing, sources, args.name)
  }

  /** No later entry writes the same file as entry `i`. */
  predicate LastWriter(es: seq<TemplateFile>, i: int)
    requires 0 <= i < |es|
  {
    forall j :: i < j < |es| ==> es[j].fileName != es[i].fileName
  }

  /** The template of `e` loads, its output file opens and it renders. */
  predicate Renders(e: TemplateFile, render: Renderer, args: CoreArgs)
  {
    RenderFile(render(e.templateName, args), e.templateName, e.fileName).Success?
  }

  /**
    `_render_templates` into the staging area, entry by entry: file name to
    rendered text.  The first failure stops it; staging succeeds exactly when
    every entry renders, and then holds one file per distinct file name.
  */
  function Stage(entries: seq<TemplateFile>, render: Renderer, args: CoreArgs): (r: Result<map<string, string>, Failure>)
    ensures r.Success? <==> forall e :: e in entries ==> Renders(e, render, args)
    ensures r.Success? ==> r.value.Keys == set e | e in entries :: e.fileName
    ensures r.Failure? ==> r.error.LoadFailed? || r.error.WriteFailed? || r.error.RenderFailed?
    decreases |entries|
  {
    if entries == [] then Success(map[])
    else
      var pre := entries[..|entries| - 1];
      var e := entries[|entries| - 1];
      assert entries == pre + [e];
      match Stage(pre, render, args)
      case Failure(f) => Failure(f)
      case Success(staged) =>
        match RenderFile(render(e.templateName, args), e.templateName, e.fileName)
        case Failure(f) =>
          assert e in entries && !Renders(e, render, args);
          Failure(f)
        case Success(text) => Success(staged[e.fileName := text])
  }

  /** The staged text of a file is that of the last entry writing it. */
  lemma {:induction false} StageLastWriterWins(entries: seq<TemplateFile>, render: Renderer, args: CoreArgs, i: int)
    requires Stage(entries, render, args).Success?
    requires 0 <= i < |entries| && LastWriter(entries, i)
    ensures Rendered(Stage(entries, render, args).value[entries[i].fileName]) == render(entries[i].templateName, args)
    decreases |entries|
  {
    var n := |entries| - 1;
    var pre := entries[..n];
    var e := entries[n];
    assert entries == pre + [e];
    var staged := Stage(pre, render, args).value;
    assert Stage(entries, render, args).value == staged[e.fileName := render(e.templateName, args).text];
    if i < n {
      assert pre[i] == entries[i];
      assert LastWriter(pre, i);
      StageLastWriterWins(pre, render, args, i);
    }
  }

  /** The entry at `p` is a file holding what the template engine produced. */
  predicate HoldsRendering(fs: FS, p: Path, rendering: Rendering)
  {
    p in fs && fs[p].File? && Rendered(fs[p].content) == rendering
  }

  /** `copy_tree` passes over every name starting with `.nfs`, the names NFS gives files it renames away. */
  predicate NfsName(n: string)
  {
    StartsWith(n, ".nfs")
  }

  /** The part of the staging area `copy_tree` copies: every staged file but the `.nfs` ones. */
  function Copied(staged: map<string, string>): (c: map<string, string>)
    ensures forall n :: n in c <==> n in staged && !NfsName(n)
    ensures forall n :: n in c ==> c[n] == staged[n]
  {
    map n | n in staged && !NfsName(n) :: staged[n]
  }

  /**
    `_commit_directory`: validate the destination again, then copy the
    staging area into it, `.nfs` names excepted.
  */
  function Commit(fs: FS, staged: map<string, string>, dest: Path): (r: Effect)
    ensures r.status.Fail? ==> r.fs == fs
    ensures ValidateCore(fs, dest) != Accepted ==> r.status == Fail(Conflict(ValidateCore(fs, dest)))
    ensures r.status == Pass <==> ValidateCore(fs, dest) == Accepted && !FileOnPath(fs, dest)
    ensures r.status == Pass ==>
              forall n :: n in staged && !NfsName(n) ==> dest + [n] in r.fs && r.fs[dest + [n]] == File(staged[n])
  {
    var v := ValidateCore(fs, dest);
    if v != Accepted then Effect(Fail(Conflict(v)), fs)
    else if FileOnPath(fs, dest) then Effect(Fail(CopyFailed), fs)
    else Effect(Pass, Overlay(MakeDirs(fs, dest), dest, Copied(staged)))
  }

  /**
    On a well-formed filesystem a successful commit keeps every existing
    entry, keeps the filesystem well-formed, and leaves the destination
    holding exactly the staged files whose names do not start with `.nfs`.
  */
  lemma CommitPopulates(fs: FS, staged: map<string, string>, dest: Path)
    requires WellFormed(fs) && Commit(fs, staged, dest).status == Pass
    ensures WellFormed(Commit(fs, staged, dest).fs)
    ensures forall n :: n in Listdir(Commit(fs, staged, dest).fs, dest) <==> n in staged && !NfsName(n)
    ensures forall p :: p in fs ==> p in Commit(fs, staged, dest).fs && Commit(fs, staged, dest).fs[p] == fs[p]
  {
    var m := MakeDirs(fs, dest);
    assert Commit(fs, staged, dest).fs == Overlay(m, dest, Copied(staged));
    CommitTarget(fs, dest);
    OverlayIntoEmpty(m, dest, Copied(staged));
  }

  /** A destination the validation accepts becomes an empty directory of a still well-formed filesystem. */
  lemma CommitTarget(fs: FS, dest: Path)
    requires WellFormed(fs) && ValidateCore(fs, dest) == Accepted && !FileOnPath(fs, dest)
    ensures WellFormed(MakeDirs(fs, dest)) && dest in MakeDirs(fs, dest) && MakeDirs(fs, dest)[dest] == Dir
    ensures forall n :: dest + [n] !in MakeDirs(fs, dest)
  {
    MakeDirsWellFormed(fs, dest);
    if dest !in fs {
      AbsentHasNoChildren(fs, dest);
    }
    MakeDirsAddsNoChildren(fs, dest);
    assert dest[..|dest|] == dest;
  }

  /**
    Where `copy_file` puts staged file `n` when copying into `dir`: at `n`
    inside `dir`, or, when that names a directory, inside that directory
    under the same name.
  */
  function CopyTarget(fs: FS, dir: Path, n: string): Path
  {
    if dir + [n] in fs && fs[dir + [n]].Dir? then dir + [n, n] else dir + [n]
  }

  /** Distinct staged names are copied to distinct places. */
  lemma CopyTargetInjective(fs: FS, dir: Path, n: string, m: string)
    ensures CopyTarget(fs, dir, n) == CopyTarget(fs, dir, m) ==> n == m
  {
    var a := CopyTarget(fs, dir, n);
    var b := CopyTarget(fs, dir, m);
    assert a[|dir|] == n && b[|dir|] == m;
  }

  /** The copy of `n` cannot be opened: a directory stands at its place. */
  predicate Blocked(fs: FS, dir: Path, n: string)
  {
    CopyTarget(fs, dir, n) in fs && fs[CopyTarget(fs, dir, n)].Dir?
  }

  /** The files copied into `dir`, one per name of `staged`, and nothing else. */
  function Copies(fs: FS, dir: Path, staged: map<string, string>): (c: map<Path, Entry>)
    ensures forall n :: n in staged ==> CopyTarget(fs, dir, n) in c && c[CopyTarget(fs, dir, n)] == File(staged[n])
    ensures forall p :: p in c ==> exists n :: n in staged && p == CopyTarget(fs, dir, n)
  {
    assert forall n, m :: CopyTarget(fs, dir, n) == CopyTarget(fs, dir, m) ==> n == m by {
      forall n, m
        ensures CopyTarget(fs, dir, n) == CopyTarget(fs, dir, m) ==> n == m
      {
        CopyTargetInjective(fs, dir, n, m);
      }
    }
    map n | n in staged :: CopyTarget(fs, dir, n) := File(staged[n])
  }

  /**
    `_commit_directory` when the destination string is empty: validating
    `''` finds nothing there, so it passes whatever the current directory
    `cwd` holds, and `copy_tree` copies into `cwd`, replacing same-named
    files and passing over `.nfs` names.  A copy whose place is a directory
    fails the commit.
  */
  function CommitHere(fs: FS, staged: map<string, string>, cwd: Path): (r: Effect)
    ensures r.status.Fail? ==> r == Effect(Fail(CopyFailed), fs)
    ensures r.status == Pass <==>
              cwd in fs && fs[cwd].Dir? && forall n :: n in staged && !NfsName(n) ==> !Blocked(fs, cwd, n)
    ensures r.status == Pass ==>
              forall n :: n in staged && !NfsName(n) ==>
                CopyTarget(fs, cwd, n) in r.fs && r.fs[CopyTarget(fs, cwd, n)] == File(staged[n])
    ensures r.status == Pass ==>
              forall p :: p in fs ==>
                (p in r.fs && (r.fs[p] == fs[p] || exists n :: n in staged && !NfsName(n) && p == CopyTarget(fs, cwd, n)))
    ensures r.status == Pass ==>
              forall p :: p in r.fs && p !in fs ==> exists n :: n in staged && !NfsName(n) && p == CopyTarget(fs, cwd, n)
  {
    var copied := Copied(staged);
    if cwd !in fs || !fs[cwd].Dir? then Effect(Fail(CopyFailed), fs)
    else if exists n :: n in copied && Blocked(fs, cwd, n) then Effect(Fail(CopyFailed), fs)
    else Effect(Pass, fs + Copies(fs, cwd, copied))
  }

  /**
    Adding, inside directory `dir` of a well-formed filesystem, copies none
    of which replaces a directory keeps the filesystem well-formed.
  */
  lemma CopiesWellFormed(fs: FS, dir: Path, staged: map<string, string>, c: map<Path, Entry>)
    requires WellFormed(fs) && dir in fs && fs[dir].Dir?
    requires forall n :: n in staged ==> !Blocked(fs, dir, n)
    requires forall p :: p in c ==> exists n :: n in staged && p == CopyTarget(fs, dir, n)
    ensures WellFormed(fs + c)
  {
    var r := fs + c;
    forall p | p in r && p != []
      ensures Parent(p) in r && r[Parent(p)].Dir?
    {
      if p in c {
        var n :| n in staged && p == CopyTarget(fs, dir, n);
        CopyParentIsDir(fs, dir, n);
      }
      NoCopyOnDir(fs, dir, staged, c, Parent(p));
    }
  }

  /** A copy lands inside `dir` or inside a directory of `dir`. */
  lemma CopyParentIsDir(fs: FS, dir: Path, n: string)
    requires dir in fs && fs[dir].Dir?
    ensures Parent(CopyTarget(fs, dir, n)) in fs && fs[Parent(CopyTarget(fs, dir, n))].Dir?
  {
    if dir + [n] in fs && fs[dir + [n]].Dir? {
      assert Parent(dir + [n, n]) == dir + [n];
    } else {
      assert Parent(dir + [n]) == dir;
    }
  }

  /** No copy lands on a directory. */
  lemma NoCopyOnDir(fs: FS, dir: Path, staged: map<string, string>, c: map<Path, Entry>, q: Path)
    requires forall n :: n in staged ==> !Blocked(fs, dir, n)
    requires forall p :: p in c ==> exists n :: n in staged && p == CopyTarget(fs, dir, n)
    ensures q in fs && fs[q].Dir? ==> q !in c
  {
  }

  /** A successful commit into the current directory keeps the filesystem well-formed. */
  lemma CommitHereWellFormed(fs: FS, staged: map<string, string>, cwd: Path)
    requires WellFormed(fs) && CommitHere(fs, staged, cwd).status == Pass
    ensures WellFormed(CommitHere(fs, staged, cwd).fs)
  {
    CopiesWellFormed(fs, cwd, Copied(staged), Copies(fs, cwd, Copied(staged)));
  }

  /**
    `run`: validate, build and stage every template, then commit.  An empty
    destination string passes validation whatever is there, and its commit
    copies into the current directory.
  */
  function Run(fs: FS, args: CoreArgs, listing: seq<string>, render: Renderer, locate: Locate): (r: Effect)
    ensures r.status.Fail? ==> r.fs == fs
    ensures !EmptyDestination(args) && ValidateCore(fs, locate(Destination(args))) != Accepted ==>
              r.status == Fail(Conflict(ValidateCore(fs, locate(Destination(args)))))
    ensures EmptyDestination(args) ==> !(r.status.Fail? && r.status.error.Conflict?)
    ensures !EmptyDestination(args) ==>
              (r.status == Pass <==>
                 ValidateCore(fs, locate(Destination(args))) == Accepted && !FileOnPath(fs, locate(Destination(args))) &&
                 Stage(Plan(listing, args), render, args).Success?)
    ensures EmptyDestination(args) ==>
              (r.status == Pass <==>
                 Stage(Plan(listing, args), render, args).Success? &&
                 CommitHere(fs, Stage(Plan(listing, args), render, args).value, locate(Here)).status == Pass)
    ensures r.status == Pass && !EmptyDestination(args) ==>
              r == Commit(fs, Stage(Plan(listing, args), render, args).value, locate(Destination(args)))
    ensures r.status == Pass && EmptyDestination(args) ==>
              r == CommitHere(fs, Stage(Plan(listing, args), render, args).value, locate(Here))
  {
    var dest := locate(Destination(args));
    var v := ValidateCore(fs, dest);
    if !EmptyDestination(args) && v != Accepted then Effect(Fail(Conflict(v)), fs)
    else
      match Stage(Plan(listing, args), render, args)
      case Failure(f) => Effect(Fail(f), fs)
      case Success(staged) =>
        if EmptyDestination(args) then CommitHere(fs, staged, locate(Here)) else Commit(fs, staged, dest)
  }

  /**
    Where a successful run puts output file `n`: inside the destination,
    or, for an empty destination string, wherever `copy_file` puts it in the
    current directory.
  */
  function OutputPath(fs: FS, args: CoreArgs, locate: Locate, n: string): Path
  {
    if EmptyDestination(args) then CopyTarget(fs, locate(Here), n) else locate(Destination(args)) + [n]
  }

  /**
    A successful commit of a staging area on a well-formed filesystem: the
    destination holds one file per staged entry's file name, `.nfs` names
    excepted, with the text of the last entry writing it.
  */
  lemma CommitStaged(fs: FS, entries: seq<TemplateFile>, render: Renderer, args: CoreArgs, dest: Path)
    requires WellFormed(fs) && Stage(entries, render, args).Success?
    requires Commit(fs, Stage(entries, render, args).value, dest).status == Pass
    ensures var r := Commit(fs, Stage(entries, render, args).value, dest);
            && WellFormed(r.fs)
            && Listdir(r.fs, dest) == (set e | e in entries && !NfsName(e.fileName) :: e.fileName)
            && (forall i :: 0 <= i < |entries| && LastWriter(entries, i) && !NfsName(entries[i].fileName) ==>
                  HoldsRendering(r.fs, dest + [entries[i].fileName], render(entries[i].templateName, args)))
            && (forall p :: p in fs ==> p in r.fs && r.fs[p] == fs[p])
  {
    var staged := Stage(entries, render, args).value;
    var r := Commit(fs, staged, dest);
    CommitPopulates(fs, staged, dest);
    forall i | 0 <= i < |entries| && LastWriter(entries, i) && !NfsName(entries[i].fileName)
      ensures HoldsRendering(r.fs, dest + [entries[i].fileName], render(entries[i].templateName, args))
    {
      StageLastWriterWins(entries, render, args, i);
      assert entries[i] in entries;
    }
  }

  /**
    A successful commit of a staging area into the current directory of a
    well-formed filesystem: every staged file name's copy, `.nfs` names
    excepted, holds the text of the last entry writing it, and every
    existing entry is kept, changed only where a copy lands on it.
  */
  lemma CommitHereStaged(fs: FS, entries: seq<TemplateFile>, render: Renderer, args: CoreArgs, cwd: Path)
    requires WellFormed(fs) && Stage(entries, render, args).Success?
    requires CommitHere(fs, Stage(entries, render, args).value, cwd).status == Pass
    ensures var r := CommitHere(fs, Stage(entries, render, args).value, cwd);
            && WellFormed(r.fs)
            && (forall i :: 0 <= i < |entries| && LastWriter(entries, i) && !NfsName(entries[i].fileName) ==>
                  HoldsRendering(r.fs, CopyTarget(fs, cwd, entries[i].fileName), render(entries[i].templateName, args)))
            && (forall p :: p in fs ==>
                  (p in r.fs && (r.fs[p] == fs[p] || exists e :: e in entries && !NfsName(e.fileName) && p == CopyTarget(fs, cwd, e.fileName))))
  {
    var staged := Stage(entries, render, args).value;
    var r := CommitHere(fs, staged, cwd);
    CommitHereWellFormed(fs, staged, cwd);
    forall i | 0 <= i < |entries| && LastWriter(entries, i) && !NfsName(entries[i].fileName)
      ensures HoldsRendering(r.fs, CopyTarget(fs, cwd, entries[i].fileName), render(entries[i].templateName, args))
    {
      StageLastWriterWins(entries, render, args, i);
    }
    forall p | p in fs && r.fs[p] != fs[p]
      ensures exists e :: e in entries && !NfsName(e.fileName) && p == CopyTarget(fs, cwd, e.fileName)
    {
      var n :| n in staged && !NfsName(n) && p == CopyTarget(fs, cwd, n);
      assert n in set e | e in entries :: e.fileName;
    }
  }

  /**
    A successful run on a well-formed filesystem writes, for every planned
    file name not starting with `.nfs`, the text of the last plan entry
    writing it.  With a non-empty destination string the destination holds
    exactly those files, the `.nfs` ones are missing, and no existing entry
    changes; with an empty one the files land in the current directory,
    replacing existing files of the same name, and nothing else changes.
  */
  lemma RunProducesPlannedFiles(fs: FS, args: CoreArgs, listing: seq<string>, render: Renderer, locate: Locate)
    requires WellFormed(fs) && Run(fs, args, listing, render, locate).status == Pass
    ensures var r := Run(fs, args, listing, render, locate);
            var plan := Plan(listing, args);
            && WellFormed(r.fs)
            && (forall i :: 0 <= i < |plan| && LastWriter(plan, i) && !NfsName(plan[i].fileName) ==>
                  HoldsRendering(r.fs, OutputPath(fs, args, locate, plan[i].fileName), render(plan[i].templateName, args)))
    ensures var r := Run(fs, args, listing, render, locate);
            var dest := locate(Destination(args));
            var plan := Plan(listing, args);
            !EmptyDestination(args) ==>
              && Listdir(r.fs, dest) == (set e | e in plan && !NfsName(e.fileName) :: e.fileName)
              && (forall e :: e in plan && NfsName(e.fileName) ==> dest + [e.fileName] !in r.fs)
              && (forall p :: p in fs ==> p in r.fs && r.fs[p] == fs[p])
    ensures var r := Run(fs, args, listing, render, locate);
            var plan := Plan(listing, args);
            EmptyDestination(args) ==>
              forall p :: p in fs ==>
                (p in r.fs && (r.fs[p] == fs[p] || exists e :: e in plan && !NfsName(e.fileName) && p == OutputPath(fs, args, locate, e.fileName)))
  {
    if EmptyDestination(args) {
      CommitHereStaged(fs, Plan(listing, args), render, args, locate(Here));
    } else {
      var dest := locate(Destination(args));
      var plan := Plan(listing, args);
      var r := Run(fs, args, listing, render, locate);
      CommitStaged(fs, plan, render, args, dest);
      forall e | e in plan && NfsName(e.fileName)
        ensures dest + [e.fileName] !in r.fs
      {
        assert e.fileName !in Listdir(r.fs, dest);
      }
    }
  }

  /** On success, the output file of the last plan entry writing a name other than a `.nfs` one holds that entry's rendering. */
  lemma RunWritesLastWriter(fs: FS, args: CoreArgs, listing: seq<string>, render: Renderer, locate: Locate, k: int)
    requires Run(fs, args, listing, render, locate).status == Pass
    requires var plan := Plan(listing, args); 0 <= k < |plan| && LastWriter(plan, k)
    ensures var plan := Plan(listing, args);
            !NfsName(plan[k].fileName) ==>
              HoldsRendering(Run(fs, args, listing, render, locate).fs, OutputPath(fs, args, locate, plan[k].fileName),
                             render(plan[k].templateName, args))
  {
    var plan := Plan(listing, args);
    StageLastWriterWins(plan, render, args, k);
    assert plan[k] in plan;
  }

  /** The entries of a source list are those of all but its last source, then those of the last. */
  lemma BuildTemplatesLastSource(listing: seq<string>, sources: seq<string>, coreName: string)
    requires |sources| >= 1
    ensures var n := |sources| - 1;
            BuildTemplates(listing, sources, coreName) ==
              BuildTemplates(listing, sources[..n], coreName) + BuildTemplates(listing, [sources[n]], coreName)
  {
    var n := |sources| - 1;
    assert sources == sources[..n] + [sources[n]];
    BuildTemplatesAppend(listing, sources[..n], [sources[n]], coreName);
  }

  /**
    The `default` source comes last, so where a sim-tool template and a
    default template produce the same file name, the default one is what
    reaches the destination.
  */
  lemma RunDefaultWins(fs: FS, args: CoreArgs, listing: seq<string>, render: Renderer, locate: Locate, i: int)
    requires Run(fs, args, listing, render, locate).status == Pass
    requires var defaults := BuildTemplates(listing, ["default"], args.name);
             0 <= i < |defaults| && LastWriter(defaults, i)
    ensures var defaults := BuildTemplates(listing, ["default"], args.name);
            !NfsName(defaults[i].fileName) ==>
              HoldsRendering(Run(fs, args, listing, render, locate).fs, OutputPath(fs, args, locate, defaults[i].fileName),
                             render(defaults[i].templateName, args))
  {
    var k := DefaultEntryInPlan(listing, args, i);
    RunWritesLastWriter(fs, args, listing, render, locate, k);
  }

  /** A `default` entry that is its own source's last writer is a last writer of the whole plan. */
  lemma DefaultEntryInPlan(listing: seq<string>, args: CoreArgs, i: int) returns (k: int)
    requires var defaults := BuildTemplates(listing, ["default"], args.name);
             0 <= i < |defaults| && LastWriter(defaults, i)
    ensures var plan := Plan(listing, args);
            0 <= k < |plan| && plan[k] == BuildTemplates(listing, ["default"], args.name)[i] && LastWriter(plan, k)
  {
    var defaults := BuildTemplates(listing, ["default"], args.name);
    var front := if args.simTool.Some? then BuildTemplates(listing, [args.simTool.value], args.name) else [];
    assert Plan(listing, args) == front + defaults;
    k := LastWriterShifts(Plan(listing, args), front, defaults, i);
  }

  /** A last writer of the tail of a sequence is a last writer of the whole sequence. */
  lemma LastWriterShifts(es: seq<TemplateFile>, front: seq<TemplateFile>, back: seq<TemplateFile>, i: int) returns (k: int)
    requires es == front + back && 0 <= i < |back| && LastWriter(back, i)
    ensures 0 <= k < |es| && es[k] == back[i] && LastWriter(es, k)
  {
    k := |front| + i;
    forall j | k < j < |es|
      ensures es[j].fileName != es[k].fileName
    {
      assert es[j] == back[j - |front|];
    }
  }
}

=== FILE: corelegacy.dfy ===
/**
  The earlier core generator, `init` of `fondue/core.py`: create the
  destination directory (an existing empty directory is fine), then render
  two fixed templates straight into it, `<name>.ffc` first and `<name>.v`
  second.  There is no staging area: a failure part-way leaves whatever was
  already created or opened behind.
*/
module CoreLegacy {
  import opened Wrappers
  import opened FileSystem
  import opened TemplateRepo
  import opened Validation
  import opened CoreInit

  const CoreTemplate: string := "core_init/default.ffc.j2"
  const VerilogTemplate: string := "core_init/default.v.j2"

  function CoreFile(name: string): string
  {
    name + ".ffc"
  }

  function VerilogFile(name: string): string
  {
    name + ".v"
  }

  /**
    `os.makedirs` with the `EEXIST` handling of `init`: an absent destination
    is created with every missing parent, an existing empty directory is
    used as it is, anything else stops the command.
  */
  function Prepare(fs: FS, dest: Path): (r: Result<FS, Failure>)
    ensures ValidateCore(fs, dest) != Accepted ==> r == Failure(Conflict(ValidateCore(fs, dest)))
    ensures r.Success? <==> ValidateCore(fs, dest) == Accepted && (dest in fs || !FileOnPath(fs, dest))
    ensures r.Failure? && !r.error.Conflict? ==> r.error == CreateFailed
    ensures r.Success? ==> dest in r.value && r.value[dest] == Dir
    ensures r.Success? ==> forall p :: p in fs ==> p in r.value && r.value[p] == fs[p]
    ensures r.Success? ==> forall p :: p in r.value && p !in fs ==> |p| <= |dest| && p == dest[..|p|]
  {
    if dest in fs then
      if fs[dest].File? then Failure(Conflict(NotADirectory))
      else if Listdir(fs, dest) != {} then Failure(Conflict(NotEmpty))
      else Success(fs)
    else if FileOnPath(fs, dest) then Failure(CreateFailed)
    else
      assert dest[..|dest|] == dest;
      Success(MakeDirs(fs, dest))
  }

  /** On a well-formed filesystem the prepared destination is an empty directory. */
  lemma PreparedIsEmpty(fs: FS, dest: Path)
    requires Prepare(fs, dest).Success?
    ensures WellFormed(fs) ==> forall n :: dest + [n] !in Prepare(fs, dest).value
  {
    var ready := Prepare(fs, dest).value;
    if WellFormed(fs) && dest !in fs {
      AbsentHasNoChildren(fs, dest);
    }
    forall n | WellFormed(fs)
      ensures dest + [n] !in ready
    {
      var c := dest + [n];
      assert c in ready && c !in fs ==> |c| <= |dest|;
    }
  }

  /** `open(path, 'w')` of `fileName` inside `dir` succeeds: the directory exists and the name is not a directory there. */
  predicate CanOpen(fs: FS, dir: Path, fileName: string)
  {
    dir in fs && fs[dir].Dir? && IsComponent(fileName) && !(dir + [fileName] in fs && fs[dir + [fileName]].Dir?)
  }

  /**
    `render_template` writing `fileName` inside `dir`: the template is
    loaded, the file is opened for writing (created, or truncated if it is
    a regular file), and only then rendered into it.  A render that fails
    leaves the opened file empty.
  */
  function WriteRendered(fs: FS, dir: Path, fileName: string, templateName: string, rendering: Rendering): (r: Effect)
    ensures r.status == Pass <==> rendering.Rendered? && CanOpen(fs, dir, fileName)
    ensures rendering.NotLoadable? ==> r == Effect(Fail(LoadFailed(templateName)), fs)
    ensures !rendering.NotLoadable? && !CanOpen(fs, dir, fileName) ==> r == Effect(Fail(WriteFailed(fileName)), fs)
    ensures r.status == Pass ==> r.fs == fs[dir + [fileName] := File(rendering.text)]
    ensures r.status == Fail(RenderFailed(templateName)) <==> rendering.Failed? && CanOpen(fs, dir, fileName)
    ensures r.status == Fail(RenderFailed(templateName)) ==> r.fs == fs[dir + [fileName] := File("")]
    ensures r.status.Fail? && r.status != Fail(RenderFailed(templateName)) ==> r.fs == fs
  {
    if rendering.NotLoadable? then Effect(Fail(LoadFailed(templateName)), fs)
    else if !CanOpen(fs, dir, fileName) then Effect(Fail(WriteFailed(fileName)), fs)
    else if rendering.Failed? then Effect(Fail(RenderFailed(templateName)), fs[dir + [fileName] := File("")])
    else Effect(Pass, fs[dir + [fileName] := File(rendering.text)])
  }

  /**
    `init`: prepare the destination, then write the core file and the
    Verilog file in turn.  `os.makedirs` of an empty destination string
    raises an error `init` does not catch, so nothing is written.
  */
  function Init(fs: FS, args: CoreArgs, render: Renderer, locate: Locate): (r: Effect)
    ensures EmptyDestination(args) ==> r == Effect(Fail(CreateFailed), fs)
    ensures var dest := locate(Destination(args));
            !EmptyDestination(args) && ValidateCore(fs, dest) != Accepted ==>
              r == Effect(Fail(Conflict(ValidateCore(fs, dest))), fs)
    ensures var dest := locate(Destination(args));
            WellFormed(fs) ==> (r.status == Pass <==>
              && !EmptyDestination(args)
              && ValidateCore(fs, dest) == Accepted && (dest in fs || !FileOnPath(fs, dest))
              && '/' !in args.name
              && render(CoreTemplate, args).Rendered? && render(VerilogTemplate, args).Rendered?)
  {
    var dest := locate(Destination(args));
    if EmptyDestination(args) then Effect(Fail(CreateFailed), fs)
    else
      match Prepare(fs, dest)
      case Failure(f) => Effect(Fail(f), fs)
      case Success(ready) =>
        NameComponents(args.name);
        PreparedIsEmpty(fs, dest);
        var first := WriteRendered(ready, dest, CoreFile(args.name), CoreTemplate, render(CoreTemplate, args));
        if first.status.Fail? then first
        else
          assert dest + [VerilogFile(args.name)] != dest + [CoreFile(args.name)] by {
            assert (dest + [VerilogFile(args.name)])[|dest|] == VerilogFile(args.name);
            assert (dest + [CoreFile(args.name)])[|dest|] == CoreFile(args.name);
            assert VerilogFile(args.name)[|args.name| + 1] == 'v';
            assert CoreFile(args.name)[|args.name| + 1] == 'f';
          }
          WriteRendered(first.fs, dest, VerilogFile(args.name), VerilogTemplate, render(VerilogTemplate, args))
  }

  /** A successful `init` is two writes of the two renderings into the prepared destination. */
  lemma InitWrites(fs: FS, args: CoreArgs, render: Renderer, locate: Locate) returns (ready: FS, t1: string, t2: string)
    requires Init(fs, args, render, locate).status == Pass
    ensures var dest := locate(Destination(args));
            && Prepare(fs, dest) == Success(ready)
            && Init(fs, args, render, locate).fs ==
                 ready[dest + [CoreFile(args.name)] := File(t1)][dest + [VerilogFile(args.name)] := File(t2)]
            && Rendered(t1) == render(CoreTemplate, args) && Rendered(t2) == render(VerilogTemplate, args)
            && CoreFile(args.name) != VerilogFile(args.name)
  {
    var dest := locate(Destination(args));
    ready := Prepare(fs, dest).value;
    t1 := render(CoreTemplate, args).text;
    t2 := render(VerilogTemplate, args).text;
    var ffc := CoreFile(args.name);
    var v := VerilogFile(args.name);
    assert ffc[|args.name| + 1] == 'f' && v[|args.name| + 1] == 'v';
  }

  /** Writing a new file into a directory keeps the filesystem well-formed and adds its name to the listing. */
  lemma WriteFileWellFormed(fs: FS, dir: Path, n: string, t: string)
    requires WellFormed(fs) && dir in fs && fs[dir] == Dir && dir + [n] !in fs
    ensures WellFormed(fs[dir + [n] := File(t)])
    ensures Listdir(fs[dir + [n] := File(t)], dir) == Listdir(fs, dir) + {n}
  {
    var r := fs[dir + [n] := File(t)];
    assert Parent(dir + [n]) == dir;
    forall p | p in r && p != [] && p != dir + [n]
      ensures Parent(p) in r && r[Parent(p)].Dir?
    {
      assert Parent(p) in fs;
    }
    forall m | dir + [m] == dir + [n]
      ensures m == n
    {
      assert (dir + [m])[|dir|] == m;
    }
  }

  /**
    A successful `init` on a well-formed filesystem keeps it well-formed and
    leaves the destination holding exactly `<name>.ffc` and `<name>.v`, with
    the two renderings.
  */
  lemma InitCreatesExactlyTwoFiles(fs: FS, args: CoreArgs, render: Renderer, locate: Locate)
    requires WellFormed(fs) && Init(fs, args, render, locate).status == Pass
    ensures var r := Init(fs, args, render, locate);
            var dest := locate(Destination(args));
            && WellFormed(r.fs)
            && Listdir(r.fs, dest) == {CoreFile(args.name), VerilogFile(args.name)}
            && HoldsRendering(r.fs, dest + [CoreFile(args.name)], render(CoreTemplate, args))
            && HoldsRendering(r.fs, dest + [VerilogFile(args.name)], render(VerilogTemplate, args))
  {
    var dest := locate(Destination(args));
    var ready, t1, t2 := InitWrites(fs, args, render, locate);
    var ffc := CoreFile(args.name);
    var v := VerilogFile(args.name);
    PreparedIsEmpty(fs, dest);
    if dest !in fs {
      MakeDirsWellFormed(fs, dest);
    }
    assert Listdir(ready, dest) == {};
    var w1 := ready[dest + [ffc] := File(t1)];
    WriteFileWellFormed(ready, dest, ffc, t1);
    assert dest + [v] != dest + [ffc] by {
      assert (dest + [v])[|dest|] == v;
    }
    WriteFileWellFormed(w1, dest, v, t2);
  }

  /**
    A successful `init` on a well-formed filesystem changes no existing
    entry and adds nothing but the missing directories down to the
    destination and the two files.
  */
  lemma InitAddsOnlyDestination(fs: FS, args: CoreArgs, render: Renderer, locate: Locate)
    requires WellFormed(fs) && Init(fs, args, render, locate).status == Pass
    ensures var r := Init(fs, args, render, locate);
            forall p :: p in fs ==> p in r.fs && r.fs[p] == fs[p]
    ensures var r := Init(fs, args, render, locate);
            var dest := locate(Destination(args));
            forall p :: p in r.fs && p !in fs ==>
              (|p| <= |dest| && p == dest[..|p|]) || IsChildIn(p, dest, {CoreFile(args.name), VerilogFile(args.name)})
  {
    var dest := locate(Destination(args));
    var ready, t1, t2 := InitWrites(fs, args, render, locate);
    PreparedIsEmpty(fs, dest);
    var names := {CoreFile(args.name), VerilogFile(args.name)};
    assert (dest + [CoreFile(args.name)])[..|dest|] == dest && (dest + [VerilogFile(args.name)])[..|dest|] == dest;
    assert (dest + [CoreFile(args.name)])[|dest|] in names && (dest + [VerilogFile(args.name)])[|dest|] in names;
  }

  /**
    `init` is not atomic: when the destination is absent and the first
    render fails, the command stops with the destination created and holding
    only an empty `<name>.ffc`.
  */
  lemma InitNotAtomic(fs: FS, args: CoreArgs, render: Renderer, locate: Locate)
    requires WellFormed(fs) && !EmptyDestination(args)
    requires locate(Destination(args)) !in fs && !FileOnPath(fs, locate(Destination(args)))
    requires '/' !in args.name && render(CoreTemplate, args) == Failed
    ensures var r := Init(fs, args, render, locate);
            var dest := locate(Destination(args));
            && r.status == Fail(RenderFailed(CoreTemplate))
            && dest in r.fs && r.fs[dest] == Dir
            && Listdir(r.fs, dest) == {CoreFile(args.name)}
            && r.fs[dest + [CoreFile(args.name)]] == File("")
  {
    var dest := locate(Destination(args));
    var ready := Prepare(fs, dest).value;
    PreparedIsEmpty(fs, dest);
    NameComponents(args.name);
    var ffc := CoreFile(args.name);
    assert (dest + [ffc])[|dest|] == ffc;
    var r := Init(fs, args, render, locate);
    assert r.fs == ready[dest + [ffc] := File("")];
    forall n | n in Listdir(r.fs, dest)
      ensures n == ffc
    {
      assert dest + [n] in ready || dest + [n] == dest + [ffc];
      assert (dest + [n])[|dest|] == n;
    }
  }

  /** Both output names are single path components exactly when the core name holds no separator. */
  lemma NameComponents(name: string)
    ensures IsComponent(CoreFile(name)) <==> '/' !in name
    ensures IsComponent(VerilogFile(name)) <==> '/' !in name
  {
    assert CoreFile(name)[|name|..] == ".ffc" && VerilogFile(name)[|name|..] == ".v";
    assert CoreFile(name) != "." && CoreFile(name) != ".." by {
      assert |CoreFile(name)| >= 4 && CoreFile(name)[|name| + 1] == 'f';
    }
    assert VerilogFile(name) != "." && VerilogFile(name) != ".." by {
      assert |VerilogFile(name)| >= 2 && VerilogFile(name)[|name| + 1] == 'v';
    }
    if '/' in name {
      var k :| 0 <= k < |name| && name[k] == '/';
      assert CoreFile(name)[k] == '/' && VerilogFile(name)[k] == '/';
    }
    if '/' in CoreFile(name) {
      var k :| 0 <= k < |CoreFile(name)| && CoreFile(name)[k] == '/';
      assert k < |name| && name[k] == '/';
    }
    if '/' in VerilogFile(name) {
      var k :| 0 <= k < |VerilogFile(name)| && VerilogFile(name)[k] == '/';
      assert k < |name| && name[k] == '/';
    }
  }
}

=== FILE: filesystem.dfy ===
/**
  A filesystem as a finite map from paths to entries.  A path is the sequence
  of its components from the root; a directory's listing is not stored but
  read off the map (`Listdir`), so a listing can never disagree with the
  entries it names.
*/
module FileSystem {

  type Path = seq<string>

  datatype Entry = File(content: string) | Dir

  type FS = map<Path, Entry>

  /** The directory holding a non-root path. */
  function Parent(p: Path): Path
    requires p != []
  {
    p[..|p| - 1]
  }

  /** `p` names the entry `p[|d|]` directly inside `d`, and that name is one of `names`. */
  predicate IsChildIn(p: Path, d: Path, names: set<string>)
  {
    |p| == |d| + 1 && p[..|d|] == d && p[|d|] in names
  }

  /** A path one longer than `d` that starts with `d` names an entry directly inside `d`. */
  lemma ChildPath(p: Path, d: Path)
    ensures |p| == |d| + 1 && p[..|d|] == d ==> p == d + [p[|d|]]
  {
  }

  /** `os.listdir(d)`: the names of the entries directly inside `d`. */
  function Listdir(fs: FS, d: Path): (names: set<string>)
    ensures forall n :: n in names <==> d + [n] in fs
  {
    assert forall n :: (d + [n])[..|d|] == d && (d + [n])[|d|] == n;
    assert forall p :: |p| == |d| + 1 && p[..|d|] == d ==> p == d + [p[|d|]];
    set p | p in fs.Keys && |p| == |d| + 1 && p[..|d|] == d :: p[|d|]
  }

  /** The root is a directory and every other entry sits inside a directory. */
  predicate WellFormed(fs: FS)
  {
    && [] in fs && fs[[]] == Dir
    && forall p :: p in fs && p != [] ==> Parent(p) in fs && fs[Parent(p)].Dir?
  }

  /** Some prefix of `d`, `d` itself included, is a regular file. */
  predicate FileOnPath(fs: FS, d: Path)
  {
    exists i :: 0 <= i <= |d| && d[..i] in fs && fs[d[..i]].File?
  }

  /** A single, non-empty name that is neither `.` nor `..` and holds no separator. */
  predicate IsComponent(n: string)
  {
    n != [] && n != "." && n != ".." && '/' !in n
  }

  /** `os.makedirs` / distutils `mkpath`: create every missing directory down to `d`. */
  function MakeDirs(fs: FS, d: Path): (r: FS)
    requires !FileOnPath(fs, d)
    ensures forall i :: 0 <= i <= |d| ==> d[..i] in r && r[d[..i]] == Dir
    ensures forall p :: p in fs ==> p in r && r[p] == fs[p]
    ensures forall p :: p in r && p !in fs ==> |p| <= |d| && p == d[..|p|]
    decreases |d|
  {
    assert forall i :: 0 <= i < |d| ==> Parent(d)[..i] == d[..i];
    assert d[..|d|] == d;
    var up := if d == [] then fs else MakeDirs(fs, Parent(d));
    if d in up then up else up[d := Dir]
  }

  lemma {:induction false} MakeDirsWellFormed(fs: FS, d: Path)
    requires WellFormed(fs) && !FileOnPath(fs, d)
    ensures WellFormed(MakeDirs(fs, d))
  {
    var r := MakeDirs(fs, d);
    forall p | p in r && p != []
      ensures Parent(p) in r && r[Parent(p)].Dir?
    {
      if p !in fs {
        assert p == d[..|p|] && Parent(p) == d[..|p| - 1];
      }
    }
  }

  /** In a well-formed filesystem nothing lies inside a path that is absent. */
  lemma AbsentHasNoChildren(fs: FS, d: Path)
    requires WellFormed(fs) && d !in fs
    ensures forall n :: d + [n] !in fs
  {
    forall n
      ensures d + [n] !in fs
    {
      assert Parent(d + [n]) == d;
    }
  }

  /** Creating the directories down to `d` puts nothing inside `d`. */
  lemma MakeDirsAddsNoChildren(fs: FS, d: Path)
    requires !FileOnPath(fs, d) && forall n :: d + [n] !in fs
    ensures forall n :: d + [n] !in MakeDirs(fs, d)
  {
    var m := MakeDirs(fs, d);
    forall n
      ensures d + [n] !in m
    {
      var c := d + [n];
      assert c in m && c !in fs ==> |c| <= |d|;
    }
  }

  /** Write one file per name of `files` directly inside `d`, replacing what was there. */
  function Overlay(fs: FS, d: Path, files: map<string, string>): (r: FS)
    ensures forall n :: n in files ==> d + [n] in r && r[d + [n]] == File(files[n])
    ensures forall p :: p in fs ==> p in r
    ensures forall p :: p in r && p !in fs ==> IsChildIn(p, d, files.Keys)
    ensures forall p :: p in fs && !IsChildIn(p, d, files.Keys) ==> r[p] == fs[p]
  {
    assert forall n :: (d + [n])[..|d|] == d && (d + [n])[|d|] == n;
    fs + map n | n in files :: d + [n] := File(files[n])
  }

  lemma OverlayWellFormed(fs: FS, d: Path, files: map<string, string>)
    requires WellFormed(fs) && d in fs && fs[d] == Dir
    requires forall n :: n in files ==> d + [n] !in fs
    ensures WellFormed(Overlay(fs, d, files))
    ensures Listdir(Overlay(fs, d, files), d) == Listdir(fs, d) + files.Keys
  {
    OverlayParents(fs, d, files, Overlay(fs, d, files));
    var r := Overlay(fs, d, files);
    forall n | d + [n] in r && d + [n] !in fs
      ensures n in files
    {
      assert (d + [n])[|d|] == n;
    }
  }

  /** Copying files into an empty directory of a well-formed filesystem lists exactly those files there and changes nothing else. */
  lemma OverlayIntoEmpty(fs: FS, d: Path, files: map<string, string>)
    requires WellFormed(fs) && d in fs && fs[d] == Dir
    requires forall n :: d + [n] !in fs
    ensures WellFormed(Overlay(fs, d, files))
    ensures Listdir(Overlay(fs, d, files), d) == files.Keys
    ensures forall p :: p in fs ==> Overlay(fs, d, files)[p] == fs[p]
  {
    OverlayWellFormed(fs, d, files);
    assert Listdir(fs, d) == {};
    forall p | p in fs
      ensures !IsChildIn(p, d, files.Keys)
    {
      ChildPath(p, d);
    }
  }

  /**
    A filesystem that keeps every entry of a well-formed one, adds entries
    only directly inside directory `d`, and changes nothing else, is
    well-formed as long as no added name replaces an existing entry.
  */
  lemma OverlayParents(fs: FS, d: Path, files: map<string, string>, r: FS)
    requires WellFormed(fs) && d in fs && fs[d] == Dir
    requires forall n :: n in files ==> d + [n] !in fs
    requires forall p :: p in fs ==> p in r
    requires forall p :: p in r && p !in fs ==> IsChildIn(p, d, files.Keys)
    requires forall p :: p in fs && !IsChildIn(p, d, files.Keys) ==> r[p] == fs[p]
    ensures WellFormed(r)
  {
    forall p | p in r && p != [] && p !in fs
      ensures Parent(p) in r && r[Parent(p)].Dir?
    {
      assert Parent(p) == d;
    }
    forall p | p in fs && p != []
      ensures Parent(p) in r && r[Parent(p)].Dir?
    {
      ChildPath(Parent(p), d);
    }
  }
}

=== FILE: layers.dfy ===
/**
  Template layering of `fondue/project/init.py`: a template set maps a
  relative output path to a template, and a later layer overrides an earlier
  one key by key, giving the incoming template the overridden one as parent.
  A template's parent is held by value, so parent chains are finite and
  acyclic by construction.
*/
module Layers {
  import opened Wrappers

  datatype Template = Template(id: string, parent: Option<Template>)

  /** The ids along the parent chain, newest first. */
  function Chain(t: Template): (c: seq<string>)
    ensures |c| >= 1 && c[0] == t.id
  {
    match t.parent
    case None => [t.id]
    case Some(p) => [t.id] + Chain(p)
  }

  /** A template has a parent exactly when its chain goes on, and the parent's chain is the rest. */
  lemma ChainTail(t: Template)
    ensures t.parent.Some? <==> |Chain(t)| >= 2
    ensures t.parent.Some? ==> Chain(t.parent.value) == Chain(t)[1..]
  {
  }

  /** When a chain lists `h` newest first, the parent exists exactly when `h` has two ids, and its chain drops the newest. */
  lemma ParentChain(t: Template, h: seq<string>)
    requires Chain(t) == Reverse(h)
    ensures t.parent.Some? <==> |h| >= 2
    ensures t.parent.Some? ==> Chain(t.parent.value) == Reverse(h[..|h| - 1])
  {
    ChainTail(t);
    if h != [] {
      assert Reverse(h) == [h[|h| - 1]] + Reverse(h[..|h| - 1]);
    }
  }

  /** Number of parent links below `t`. */
  function Depth(t: Template): nat
  {
    |Chain(t)| - 1
  }

  /** Every template reachable through parent links. */
  function Ancestors(t: Template): set<Template>
  {
    match t.parent
    case None => {}
    case Some(p) => {p} + Ancestors(p)
  }

  /** Every ancestor has a strictly shorter chain, so no template is its own ancestor. */
  lemma {:induction false} Acyclic(t: Template)
    ensures forall a :: a in Ancestors(t) ==> |Chain(a)| < |Chain(t)| && a != t
  {
    match t.parent
    case None =>
    case Some(p) =>
      Acyclic(p);
  }

  type Layer = map<string, Template>

  /**
    `_update_templates`: the incoming layer overrides the original one; an
    incoming template whose key was already present gets the template it
    replaces as its parent.
  */
  function UpdateTemplates(orig: Layer, incoming: Layer): (r: Layer)
    ensures r.Keys == orig.Keys + incoming.Keys
    ensures forall k :: k in incoming && k in orig ==> r[k] == Template(incoming[k].id, Some(orig[k]))
    ensures forall k :: k in incoming && k !in orig ==> r[k] == incoming[k]
    ensures forall k :: k in orig && k !in incoming ==> r[k] == orig[k]
  {
    map k | k in orig.Keys + incoming.Keys ::
      if k in incoming then
        if k in orig then incoming[k].(parent := Some(orig[k])) else incoming[k]
      else orig[k]
  }

  /** A layer straight from a repository: no template has a parent yet. */
  predicate Fresh(l: Layer)
  {
    forall k :: k in l ==> l[k].parent.None?
  }

  predicate AllFresh(layers: seq<Layer>)
  {
    forall i :: 0 <= i < |layers| ==> Fresh(layers[i])
  }

  /** Apply the layers in order, each one overriding all before it. */
  function MergeAll(layers: seq<Layer>): Layer
    requires |layers| >= 1
  {
    if |layers| == 1 then layers[0]
    else UpdateTemplates(MergeAll(layers[..|layers| - 1]), layers[|layers| - 1])
  }

  /** Merging one more layer is one more override of the merge so far. */
  lemma MergeAllStep(layers: seq<Layer>)
    requires |layers| >= 2
    ensures MergeAll(layers) == UpdateTemplates(MergeAll(layers[..|layers| - 1]), layers[|layers| - 1])
  {
  }

  /** Merging up to four layers, written out as the overrides applied one after another. */
  lemma MergeUpToFour(ls: seq<Layer>)
    requires 1 <= |ls| <= 4
    ensures |ls| == 1 ==> MergeAll(ls) == ls[0]
    ensures |ls| == 2 ==> MergeAll(ls) == UpdateTemplates(ls[0], ls[1])
    ensures |ls| == 3 ==> MergeAll(ls) == UpdateTemplates(UpdateTemplates(ls[0], ls[1]), ls[2])
    ensures |ls| == 4 ==> MergeAll(ls) == UpdateTemplates(UpdateTemplates(UpdateTemplates(ls[0], ls[1]), ls[2]), ls[3])
  {
    if |ls| >= 2 {
      assert ls[..|ls| - 1][..1] == ls[..1];
    }
    if |ls| >= 3 {
      assert ls[..|ls| - 1][..2] == ls[..2] && ls[..2][..1] == ls[..1];
    }
    if |ls| == 4 {
      assert ls[..3][..2] == ls[..2];
    }
  }

  /** The ids the layers give to key `k`, oldest first. */
  function History(layers: seq<Layer>, k: string): (h: seq<string>)
    ensures |h| <= |layers|
  {
    if layers == [] then []
    else
      var last := layers[|layers| - 1];
      History(layers[..|layers| - 1], k) + (if k in last then [last[k].id] else [])
  }

  function Reverse(s: seq<string>): (r: seq<string>)
    ensures |r| == |s|
  {
    if s == [] then [] else [s[|s| - 1]] + Reverse(s[..|s| - 1])
  }

  /** A key survives the merge exactly when some layer defines it. */
  lemma {:induction false} MergeAllKeys(layers: seq<Layer>)
    requires |layers| >= 1
    ensures forall k :: k in MergeAll(layers) <==> exists i :: 0 <= i < |layers| && k in layers[i]
  {
    if |layers| > 1 {
      var pre := layers[..|layers| - 1];
      MergeAllKeys(pre);
      assert MergeAll(layers) == UpdateTemplates(MergeAll(pre), layers[|layers| - 1]);
      forall k | k in MergeAll(layers)
        ensures exists i :: 0 <= i < |layers| && k in layers[i]
      {
        if k !in layers[|layers| - 1] {
          var i :| 0 <= i < |pre| && k in pre[i];
          assert k in layers[i];
        }
      }
      forall k, i | 0 <= i < |layers| && k in layers[i]
        ensures k in MergeAll(layers)
      {
        if i < |layers| - 1 {
          assert k in pre[i];
        }
      }
    }
  }

  /**
    The merged template for a key comes from the last layer that defines
    the key.
  */
  lemma {:induction false} MergeAllWinner(layers: seq<Layer>, k: string)
    requires |layers| >= 1 && k in MergeAll(layers)
    ensures exists i :: 0 <= i < |layers| && k in layers[i] && MergeAll(layers)[k].id == layers[i][k].id &&
                        forall j :: i < j < |layers| ==> k !in layers[j]
  {
    var last := |layers| - 1;
    if k in layers[last] {
      assert MergeAll(layers)[k].id == layers[last][k].id;
    } else {
      var pre := layers[..last];
      MergeAllWinner(pre, k);
      var i :| 0 <= i < |pre| && k in pre[i] && MergeAll(pre)[k].id == pre[i][k].id &&
                forall j :: i < j < |pre| ==> k !in pre[j];
      assert layers[i] == pre[i];
      forall j | i < j < |layers|
        ensures k !in layers[j]
      {
        if j < last {
          assert layers[j] == pre[j];
        }
      }
    }
  }

  /**
    When every layer is fresh, the parent chain of a merged template lists
    every id the layers gave its key, newest first: no overridden template
    is lost and the order is kept.
  */
  lemma {:induction false} MergeAllChain(layers: seq<Layer>)
    requires |layers| >= 1 && AllFresh(layers)
    ensures forall k :: k in MergeAll(layers) <==> History(layers, k) != []
    ensures forall k :: k in MergeAll(layers) ==> Chain(MergeAll(layers)[k]) == Reverse(History(layers, k))
  {
    var n := |layers|;
    var pre := layers[..n - 1];
    var last := layers[n - 1];
    if n == 1 {
      assert pre == [];
    } else {
      assert AllFresh(pre) by {
        forall i | 0 <= i < |pre|
          ensures Fresh(pre[i])
        {
          assert pre[i] == layers[i];
        }
      }
      MergeAllChain(pre);
      var m := MergeAll(pre);
      MergeAllStep(layers);
      forall k | k in MergeAll(layers)
        ensures Chain(MergeAll(layers)[k]) == Reverse(History(layers, k))
      {
        UpdateChain(m, last, k, History(pre, k));
      }
    }
  }

  /** One override step: the chain of the updated template extends the old history by the incoming id. */
  lemma UpdateChain(m: Layer, last: Layer, k: string, h: seq<string>)
    requires Fresh(last) && (k in m <==> h != [])
    requires k in m ==> Chain(m[k]) == Reverse(h)
    requires k in m || k in last
    ensures Chain(UpdateTemplates(m, last)[k]) == Reverse(h + (if k in last then [last[k].id] else []))
  {
    if k in last {
      var x := last[k].id;
      assert (h + [x])[..|h|] == h;
      assert Reverse(h + [x]) == [x] + Reverse(h);
      if k !in m {
        assert h == [];
      }
    } else {
      assert h + [] == h;
    }
  }

  /** A merged template has at most one parent link per layer applied before its own. */
  lemma MergeAllDepth(layers: seq<Layer>, k: string)
    requires |layers| >= 1 && AllFresh(layers) && k in MergeAll(layers)
    ensures Depth(MergeAll(layers)[k]) <= |layers| - 1
  {
    MergeAllChain(layers);
  }
}

=== FILE: projectinit.dfy ===
/**
  Project generation, `fondue/project/init.py`: which template layers apply
  and in what order (`_gather_templates`), and what each render is asked to
  do (`_render_templates`).  The template storage is a parameter: for a
  repository prefix and a key it gives the templates listed under that key,
  as relative path to template name.  Rendering itself is left to the
  template engine; the model stops at the render request.
*/
module ProjectInit {
  import opened Wrappers
  import opened PyStr
  import opened Layers

  /** The options `init` receives; `name` is a required argument. */
  datatype ProjectArgs = ProjectArgs(
    name: string,
    template: Option<string>,
    simTool: Option<string>,
    directory: Option<string>)

  /** Python truthiness of an optional string: present and non-empty. */
  predicate Truthy(o: Option<string>)
  {
    o.Some? && o.value != []
  }

  /** Template storage: (repository prefix, key) to the templates listed under the key. */
  type Provider = (string, string) -> map<string, string>

  const DefaultRepo: string := "project_init/default"

  function TopRepo(template: string): string
  {
    "project_init/" + template
  }

  /** Templates built by a repository, one per listed path, none with a parent. */
  function Load(names: map<string, string>): (l: Layer)
    ensures l.Keys == names.Keys && Fresh(l)
    ensures forall k :: k in l ==> l[k].id == names[k]
  {
    map k | k in names :: Template(names[k], None)
  }

  /**
    `_gather_templates`, step by step as the source applies the layers; the
    result is the in-order merge of the layers the options select.
  */
  function GatherTemplates(args: ProjectArgs, provider: Provider): (r: Layer)
    ensures r == MergeAll(AppliedLayers(args, provider))
  {
    var templates := Load(provider(DefaultRepo, "default"));
    var withSim :=
      if Truthy(args.simTool) then UpdateTemplates(templates, Load(provider(DefaultRepo, args.simTool.value)))
      else templates;
    var ls := AppliedLayers(args, provider);
    MergeUpToFour(ls);
    AppliedLayersCases(args, provider);
    if Truthy(args.template) then
      var withTop := UpdateTemplates(withSim, Load(provider(TopRepo(args.template.value), "default")));
      if Truthy(args.simTool) then UpdateTemplates(withTop, Load(provider(TopRepo(args.template.value), args.simTool.value)))
      else withTop
    else withSim
  }

  /** The applied layers, spelled out for each combination of the two options. */
  lemma AppliedLayersCases(args: ProjectArgs, provider: Provider)
    ensures var ls := AppliedLayers(args, provider);
            var d := Load(provider(DefaultRepo, "default"));
            && (!Truthy(args.simTool) && !Truthy(args.template) ==> ls == [d])
            && (Truthy(args.simTool) && !Truthy(args.template) ==>
                  ls == [d, Load(provider(DefaultRepo, args.simTool.value))])
            && (!Truthy(args.simTool) && Truthy(args.template) ==>
                  ls == [d, Load(provider(TopRepo(args.template.value), "default"))])
            && (Truthy(args.simTool) && Truthy(args.template) ==>
                  ls == [d, Load(provider(DefaultRepo, args.simTool.value)), Load(provider(TopRepo(args.template.value), "default")),
                         Load(provider(TopRepo(args.template.value), args.simTool.value))])
  {
  }

  /**
    The layers a request applies, in order: the default layer, the default
    repository's sim-tool layer, the top-level template's default layer, and
    the top-level template's sim-tool layer, each present only when the
    options it depends on are set.
  */
  function AppliedLayers(args: ProjectArgs, provider: Provider): (ls: seq<Layer>)
    ensures 1 <= |ls| <= 4 && AllFresh(ls)
    ensures ls[0] == Load(provider(DefaultRepo, "default"))
    ensures |ls| == 1 <==> !Truthy(args.simTool) && !Truthy(args.template)
    ensures |ls| == 4 <==> Truthy(args.simTool) && Truthy(args.template)
  {
    var defaults := [Load(provider(DefaultRepo, "default"))];
    var sim := if Truthy(args.simTool) then [Load(provider(DefaultRepo, args.simTool.value))] else [];
    var top := if Truthy(args.template) then [Load(provider(TopRepo(args.template.value), "default"))] else [];
    var topSim :=
      if Truthy(args.template) && Truthy(args.simTool) then [Load(provider(TopRepo(args.template.value), args.simTool.value))]
      else [];
    defaults + sim + top + topSim
  }

  /** With neither a sim tool nor a top-level template, the result is the default layer. */
  lemma GatherDefaultOnly(args: ProjectArgs, provider: Provider)
    requires !Truthy(args.simTool) && !Truthy(args.template)
    ensures GatherTemplates(args, provider) == Load(provider(DefaultRepo, "default"))
  {
  }

  /**
    Every gathered template comes from the last applied layer listing its
    path; its parent chain lists the ids every applied layer gave that path,
    newest first, and so has at most three links.
  */
  lemma GatherOverrides(args: ProjectArgs, provider: Provider, k: string)
    requires k in GatherTemplates(args, provider)
    ensures var ls := AppliedLayers(args, provider);
            exists i :: 0 <= i < |ls| && k in ls[i] && GatherTemplates(args, provider)[k].id == ls[i][k].id &&
                        forall j :: i < j < |ls| ==> k !in ls[j]
    ensures Chain(GatherTemplates(args, provider)[k]) == Reverse(History(AppliedLayers(args, provider), k))
    ensures Depth(GatherTemplates(args, provider)[k]) <= |AppliedLayers(args, provider)| - 1 <= 3
  {
    var ls := AppliedLayers(args, provider);
    MergeAllWinner(ls, k);
    MergeAllChain(ls);
    MergeAllDepth(ls, k);
  }

  /** One call of the template engine: where to write, what to render, with which options and base. */
  datatype RenderJob = RenderJob(output: string, template: Template, args: ProjectArgs, base: Option<Template>)

  /** The last extension is dropped, then every `name` becomes the artifact name. */
  function OutputName(path: string, name: string): (out: string)
    ensures out == Join(Split(SplitExt(path).0, "name"), name)
    ensures !Contains(SplitExt(path).0, "name") ==> out == SplitExt(path).0
  {
    var root := SplitExt(path).0;
    ReplaceAllUnlessPresent(root, "name", name);
    ReplaceAll(root, "name", name)
  }

  /**
    `_render_templates`: one render per template path, writing below
    `directory`, given the caller's options unchanged and the template's
    parent as `base`.
  */
  function RenderJobs(templates: Layer, args: ProjectArgs, directory: string): (jobs: map<string, RenderJob>)
    ensures jobs.Keys == templates.Keys
    ensures forall k :: k in jobs ==> jobs[k].template == templates[k] && jobs[k].args == args
    ensures forall k :: k in jobs ==> jobs[k].base == templates[k].parent
    ensures forall k :: k in jobs ==> jobs[k].output == PathJoin(directory, OutputName(k, args.name))
  {
    map k | k in templates :: RenderJob(PathJoin(directory, OutputName(k, args.name)), templates[k], args, templates[k].parent)
  }

  /**
    A gathered template is rendered with a base exactly when an earlier
    applied layer listed its path too, and the base is the merge of those
    earlier layers for that path.
  */
  lemma RenderBaseIsOverridden(args: ProjectArgs, provider: Provider, directory: string, k: string)
    requires k in GatherTemplates(args, provider)
    ensures RenderJobs(GatherTemplates(args, provider), args, directory)[k].base.Some? <==>
            |History(AppliedLayers(args, provider), k)| >= 2
    ensures var h := History(AppliedLayers(args, provider), k);
            var base := RenderJobs(GatherTemplates(args, provider), args, directory)[k].base;
            base.Some? ==> Chain(base.value) == Reverse(h[..|h| - 1])
  {
    GatherOverrides(args, provider, k);
    ParentChain(GatherTemplates(args, provider)[k], History(AppliedLayers(args, provider), k));
  }

  /** The placeholder example: `name.v.j2` for artifact `widget` is written as `widget.v`. */
  lemma OutputNameExample()
    ensures OutputName("name.v.j2", "widget") == "widget.v"
  {
    var p := "name.v.j2";
    assert p[6] == '.' && p[7] != '.' && p[8] != '.';
    assert RFind(p, '.') == 6;
    assert RFind(p, '/') == -1;
    assert p[0] != '.';
    assert SplitExt(p).0 == p[..6] == "name.v";
    assert StartsWith("name.v", "name");
    assert "name.v"[4..] == ".v";
    assert !StartsWith(".v", "name");
    assert ReplaceAll("v", "name", "widget") == "v";
  }

  /** A root without the placeholder is used as it is, extension removed. */
  lemma OutputNameWithoutPlaceholder(path: string, name: string)
    requires !Contains(SplitExt(path).0, "name")
    ensures OutputName(path, name) == SplitExt(path).0
    ensures OutputName(path, name) + SplitExt(path).1 == path
  {
  }
}

=== FILE: pystr.dfy ===
/**
  The handful of Python string and `posixpath` operations the scaffolding code
  relies on: `str.startswith`, `str.replace`, `str.rfind`, `os.path.basename`,
  `os.path.splitext` and two-argument `os.path.join`.  Strings are `seq<char>`.
  `Split` and `Join` are reference definitions (Python's `str.split` and
  `str.join`) used to characterise `ReplaceAll`.
*/
module PyStr {

  predicate StartsWith(s: string, p: string)
  {
    |p| <= |s| && s[..|p|] == p
  }

  /** `p` occurs in `s` starting at index `k`. */
  predicate OccursAt(s: string, p: string, k: int)
  {
    0 <= k && k + |p| <= |s| && s[k..k + |p|] == p
  }

  /** Python's `p in s`. */
  predicate Contains(s: string, p: string)
  {
    exists k :: 0 <= k <= |s| && OccursAt(s, p, k)
  }

  /** Where the `i`-th copy of `r` starts in `s.replace('', r)`: each copy is followed by one character of `s`. */
  function Slot(r: string, i: nat): nat
  {
    if i == 0 then 0 else Slot(r, i - 1) + |r| + 1
  }

  /** The slots are evenly spaced: copy `i` starts at `i * (|r| + 1)`. */
  lemma {:induction false} SlotIsProduct(r: string, i: nat)
    ensures Slot(r, i) == i * (|r| + 1)
  {
    if i > 0 {
      SlotIsProduct(r, i - 1);
    }
  }

  /** A copy of `r` starts at index `k` of `t`. */
  predicate CopyAt(t: string, r: string, k: nat)
  {
    k + |r| <= |t| && t[k..k + |r|] == r
  }

  /** Character `c` stands at index `k` of `t`. */
  predicate CharAt(t: string, k: nat, c: char)
  {
    k < |t| && t[k] == c
  }

  /** `s.replace('', r)`: `r` before every character and once at the end. */
  function Interleave(s: string, r: string): string
    decreases |s|
  {
    if s == [] then r else r + [s[0]] + Interleave(s[1..], r)
  }

  /**
    The layout of `s.replace('', r)`: copy `i` of `r` starts at `Slot(r, i)`
    for every `i` up to `|s|`, character `s[i]` follows copy `i`, and
    nothing comes after the last copy.
  */
  lemma {:induction false} InterleaveLayout(s: string, r: string)
    ensures |Interleave(s, r)| == Slot(r, |s|) + |r|
    ensures forall i :: 0 <= i <= |s| ==> CopyAt(Interleave(s, r), r, Slot(r, i))
    ensures forall i :: 0 <= i < |s| ==> CharAt(Interleave(s, r), Slot(r, i) + |r|, s[i])
  {
    InterleaveLength(s, r);
    InterleaveCopies(s, r);
    InterleaveChars(s, r);
  }

  lemma {:induction false} InterleaveCopies(s: string, r: string)
    ensures forall i :: 0 <= i <= |s| ==> CopyAt(Interleave(s, r), r, Slot(r, i))
  {
    forall i | 0 <= i <= |s|
      ensures CopyAt(Interleave(s, r), r, Slot(r, i))
    {
      InterleaveCopy(s, r, i);
    }
  }

  lemma {:induction false} InterleaveChars(s: string, r: string)
    ensures forall i :: 0 <= i < |s| ==> CharAt(Interleave(s, r), Slot(r, i) + |r|, s[i])
  {
    forall i | 0 <= i < |s|
      ensures CharAt(Interleave(s, r), Slot(r, i) + |r|, s[i])
    {
      InterleaveChar(s, r, i);
    }
  }

  lemma {:induction false} InterleaveLength(s: string, r: string)
    ensures |Interleave(s, r)| == Slot(r, |s|) + |r|
    decreases |s|
  {
    if s != [] {
      InterleaveLength(s[1..], r);
    }
  }

  lemma {:induction false} InterleaveCopy(s: string, r: string, i: nat)
    requires i <= |s|
    ensures CopyAt(Interleave(s, r), r, Slot(r, i))
    decreases i
  {
    if i == 0 {
      assert Interleave(s, r)[..|r|] == r;
    } else {
      InterleaveCopy(s[1..], r, i - 1);
      ShiftCopy(r, s[0], Interleave(s[1..], r), Slot(r, i - 1));
    }
  }

  lemma {:induction false} InterleaveChar(s: string, r: string, i: nat)
    requires i < |s|
    ensures CharAt(Interleave(s, r), Slot(r, i) + |r|, s[i])
    decreases i
  {
    if i == 0 {
      assert Interleave(s, r)[|r|] == s[0];
    } else {
      InterleaveChar(s[1..], r, i - 1);
      ShiftChar(r, s[0], Interleave(s[1..], r), Slot(r, i - 1) + |r|, s[i]);
    }
  }

  /** A copy of `r` at `k` in `rest` is a copy at `k + |r| + 1` once `r` and a character are put in front. */
  lemma ShiftCopy(r: string, c: char, rest: string, k: nat)
    requires CopyAt(rest, r, k)
    ensures CopyAt(r + [c] + rest, r, k + |r| + 1)
  {
    var t := r + [c] + rest;
    assert t[k + |r| + 1..k + |r| + 1 + |r|] == rest[k..k + |r|];
  }

  /** Character `d` at `k` in `rest` stands at `k + |r| + 1` once `r` and a character are put in front. */
  lemma ShiftChar(r: string, c: char, rest: string, k: nat, d: char)
    requires CharAt(rest, k, d)
    ensures CharAt(r + [c] + rest, k + |r| + 1, d)
  {
  }

  /**
    Python's `s.replace(p, r)`: a single left-to-right pass that replaces
    non-overlapping occurrences of `p`; an empty `p` matches between every
    pair of characters.
  */
  function ReplaceAll(s: string, p: string, r: string): (t: string)
    ensures p != [] ==> t == Join(Split(s, p), r)
    decreases |s|
  {
    if p == [] then Interleave(s, r)
    else if s == [] then []
    else if StartsWith(s, p) then
      JoinSplitAtMatch(s, p, r);
      r + ReplaceAll(s[|p|..], p, r)
    else
      JoinSplitPastChar(s, p, r);
      [s[0]] + ReplaceAll(s[1..], p, r)
  }

  /** At an occurrence of the separator, split-and-join emits the replacement and moves past the occurrence. */
  lemma JoinSplitAtMatch(s: string, p: string, r: string)
    requires p != [] && s != [] && StartsWith(s, p)
    ensures Join(Split(s, p), r) == r + Join(Split(s[|p|..], p), r)
  {
    var pieces := Split(s[|p|..], p);
    assert Split(s, p) == [[]] + pieces;
    assert ([[]] + pieces)[1..] == pieces;
  }

  /** Elsewhere, split-and-join emits the first character and moves past it. */
  lemma JoinSplitPastChar(s: string, p: string, r: string)
    requires p != [] && s != [] && !StartsWith(s, p)
    ensures Join(Split(s, p), r) == [s[0]] + Join(Split(s[1..], p), r)
  {
    var pieces := Split(s[1..], p);
    assert Split(s, p) == [[s[0]] + pieces[0]] + pieces[1..];
    JoinPrepend([s[0]], pieces, r);
  }

  /** Python's `s.split(p)` for a non-empty separator. */
  function Split(s: string, p: string): (pieces: seq<string>)
    requires p != []
    ensures |pieces| >= 1
    ensures |pieces[0]| <= |s| && s[..|pieces[0]|] == pieces[0]
    decreases |s|
  {
    if s == [] then [[]]
    else if StartsWith(s, p) then [[]] + Split(s[|p|..], p)
    else
      var rest := Split(s[1..], p);
      [[s[0]] + rest[0]] + rest[1..]
  }

  /** Python's `sep.join(pieces)`. */
  function Join(pieces: seq<string>, sep: string): string
    requires |pieces| >= 1
  {
    if |pieces| == 1 then pieces[0] else pieces[0] + sep + Join(pieces[1..], sep)
  }

  lemma JoinPrepend(x: string, ps: seq<string>, sep: string)
    requires |ps| >= 1
    ensures Join([x + ps[0]] + ps[1..], sep) == x + Join(ps, sep)
  {
    var qs := [x + ps[0]] + ps[1..];
    if |ps| > 1 {
      assert qs[1..] == ps[1..];
    }
  }

  lemma {:induction false} InterleaveEmpty(s: string)
    ensures Interleave(s, []) == s
  {
    if s != [] {
      InterleaveEmpty(s[1..]);
    }
  }

  /** Replacing a pattern by itself changes nothing, for every pattern. */
  lemma ReplaceAllIdentity(s: string, p: string)
    ensures ReplaceAll(s, p, p) == s
  {
    if p == [] {
      InterleaveEmpty(s);
    } else {
      SplitJoinRoundTrip(s, p);
    }
  }

  /** Joining the pieces of a split with the separator gives back the string. */
  lemma {:induction false} SplitJoinRoundTrip(s: string, p: string)
    requires p != []
    ensures Join(Split(s, p), p) == s
    decreases |s|
  {
    if s == [] {
    } else if StartsWith(s, p) {
      JoinSplitAtMatch(s, p, p);
      SplitJoinRoundTrip(s[|p|..], p);
      assert s == s[..|p|] + s[|p|..];
    } else {
      JoinSplitPastChar(s, p, p);
      SplitJoinRoundTrip(s[1..], p);
      assert s == [s[0]] + s[1..];
    }
  }

  /** No piece of a split contains the separator: the pass misses no occurrence. */
  lemma {:induction false} SplitPiecesFree(s: string, p: string)
    requires p != []
    ensures forall i :: 0 <= i < |Split(s, p)| ==> !Contains(Split(s, p)[i], p)
    decreases |s|
  {
    var pieces := Split(s, p);
    if s == [] {
      assert pieces == [[]];
      assert !Contains([], p);
    } else if StartsWith(s, p) {
      SplitPiecesFree(s[|p|..], p);
      var tail := Split(s[|p|..], p);
      assert pieces == [[]] + tail;
      forall i | 0 <= i < |pieces|
        ensures !Contains(pieces[i], p)
      {
        if i == 0 {
          assert !Contains([], p);
        } else {
          assert pieces[i] == tail[i - 1];
        }
      }
    } else {
      SplitPiecesFree(s[1..], p);
      var rest := Split(s[1..], p);
      var head := [s[0]] + rest[0];
      assert pieces == [head] + rest[1..];
      assert !Contains(rest[0], p);
      forall k | OccursAt(head, p, k)
        ensures false
      {
        if k > 0 {
          assert rest[0][k - 1..k - 1 + |p|] == head[k..k + |p|];
          assert OccursAt(rest[0], p, k - 1);
        }
      }
      forall i | 0 <= i < |pieces|
        ensures !Contains(pieces[i], p)
      {
        if i > 0 {
          assert pieces[i] == rest[i];
        }
      }
    }
  }

  /** A string without an occurrence of a non-empty pattern is left as it is. */
  lemma {:induction false} ReplaceAllAbsent(s: string, p: string, r: string)
    requires p != [] && !Contains(s, p)
    ensures ReplaceAll(s, p, r) == s
    decreases |s|
  {
    if s != [] {
      assert !OccursAt(s, p, 0);
      forall k | OccursAt(s[1..], p, k)
        ensures false
      {
        assert s[k + 1..k + 1 + |p|] == s[1..][k..k + |p|];
        assert OccursAt(s, p, k + 1);
      }
      ReplaceAllAbsent(s[1..], p, r);
    }
  }

  /** `ReplaceAllAbsent` for any string: a pattern that does not occur leaves the string as it is. */
  lemma ReplaceAllUnlessPresent(s: string, p: string, r: string)
    requires p != []
    ensures !Contains(s, p) ==> ReplaceAll(s, p, r) == s
  {
    if !Contains(s, p) {
      ReplaceAllAbsent(s, p, r);
    }
  }

  /** A character in neither the string nor the replacement is not in the result. */
  lemma {:induction false} ReplaceAllKeepsOut(s: string, p: string, r: string, c: char)
    requires c !in s && c !in r
    ensures c !in ReplaceAll(s, p, r)
    decreases |s|
  {
    if p == [] {
      InterleaveKeepsOut(s, r, c);
    } else if s == [] {
    } else if StartsWith(s, p) {
      assert forall k :: |p| <= k < |s| ==> s[k] in s;
      ReplaceAllKeepsOut(s[|p|..], p, r, c);
    } else {
      assert forall k :: 1 <= k < |s| ==> s[k] in s;
      ReplaceAllKeepsOut(s[1..], p, r, c);
    }
  }

  lemma {:induction false} InterleaveKeepsOut(s: string, r: string, c: char)
    requires c !in s && c !in r
    ensures c !in Interleave(s, r)
  {
    if s != [] {
      assert forall k :: 1 <= k < |s| ==> s[k] in s;
      InterleaveKeepsOut(s[1..], r, c);
    }
  }

  /** Python's `s.rfind(c)`: the last index holding `c`, or -1. */
  function RFind(s: string, c: char): (i: int)
    ensures -1 <= i < |s|
    ensures 0 <= i ==> s[i] == c
    ensures forall j :: i < j < |s| ==> s[j] != c
  {
    if s == [] then -1
    else if s[|s| - 1] == c then |s| - 1
    else RFind(s[..|s| - 1], c)
  }

  predicate AllDots(s: string)
  {
    forall k :: 0 <= k < |s| ==> s[k] == '.'
  }

  /** No path separator at or after index `j`. */
  predicate InLastComponent(p: string, j: int)
  {
    0 <= j && forall k :: j <= k < |p| ==> p[k] != '/'
  }

  /** The last path component holds a dot preceded by some non-dot character. */
  ghost predicate HasExtension(p: string)
  {
    exists i, j :: 0 <= j < i < |p| && p[i] == '.' && p[j] != '.' && InLastComponent(p, j)
  }

  /**
    `os.path.splitext` on POSIX: the root and the extension.  The extension
    starts at the last dot of the last component, unless every character of
    that component before the dot is itself a dot (so `.bashrc` has none).
  */
  function SplitExt(p: string): (parts: (string, string))
    ensures parts.0 + parts.1 == p
  {
    var i := ExtStart(p);
    (p[..i], p[i..])
  }

  /** Where the extension starts: the last dot of the last component, or the end. */
  function ExtStart(p: string): (i: int)
    ensures 0 <= i <= |p|
  {
    var sep := RFind(p, '/');
    var dot := RFind(p, '.');
    if sep < dot && !AllDots(p[sep + 1..dot]) then dot else |p|
  }

  /** A non-empty extension is a dot followed by neither dots nor separators. */
  lemma SplitExtShape(p: string)
    ensures var ext := SplitExt(p).1;
            ext != [] ==> ext[0] == '.' && forall k :: 0 < k < |ext| ==> ext[k] != '.' && ext[k] != '/'
  {
    var i := ExtStart(p);
    var ext := p[i..];
    if i < |p| {
      forall k | 0 < k < |ext|
        ensures ext[k] != '.' && ext[k] != '/'
      {
        assert ext[k] == p[i + k];
      }
    }
  }

  /** `SplitExt` finds an extension exactly when the last component has one. */
  lemma SplitExtHasExtension(p: string)
    ensures SplitExt(p).1 != [] <==> HasExtension(p)
  {
    if ExtStart(p) < |p| {
      ExtensionIsInLastComponent(p);
    }
    if HasExtension(p) {
      LastComponentExtensionIsFound(p);
    }
  }

  lemma ExtensionIsInLastComponent(p: string)
    requires ExtStart(p) < |p|
    ensures HasExtension(p)
  {
    var sep := RFind(p, '/');
    var dot := RFind(p, '.');
    var stem := p[sep + 1..dot];
    var k :| 0 <= k < |stem| && stem[k] != '.';
    var j := sep + 1 + k;
    assert p[j] == stem[k];
    assert 0 <= j < dot < |p| && p[dot] == '.' && InLastComponent(p, j);
  }

  lemma LastComponentExtensionIsFound(p: string)
    requires HasExtension(p)
    ensures ExtStart(p) < |p|
  {
    var i, j :| 0 <= j < i < |p| && p[i] == '.' && p[j] != '.' && InLastComponent(p, j);
    var sep := RFind(p, '/');
    var dot := RFind(p, '.');
    assert i <= dot;
    SeparatorBefore(p, j);
    StemNotAllDots(p, sep, dot, j);
  }

  /** The last separator comes before any index of the last component. */
  lemma SeparatorBefore(p: string, j: int)
    requires j < |p| && InLastComponent(p, j)
    ensures RFind(p, '/') < j
  {
    var sep := RFind(p, '/');
    if sep >= 0 {
      assert p[sep] == '/';
    }
  }

  lemma StemNotAllDots(p: string, sep: int, dot: int, j: int)
    requires -1 <= sep < j < dot <= |p| && p[j] != '.'
    ensures !AllDots(p[sep + 1..dot])
  {
    assert p[sep + 1..dot][j - sep - 1] == p[j];
  }

  /** `os.path.basename`: the longest suffix without a separator. */
  function Basename(p: string): (b: string)
    ensures forall k :: 0 <= k < |b| ==> b[k] != '/'
    ensures |b| <= |p| && p[|p| - |b|..] == b
    ensures |b| < |p| ==> p[|p| - |b| - 1] == '/'
  {
    p[RFind(p, '/') + 1..]
  }

  /** Two-argument `os.path.join` on POSIX. */
  function PathJoin(a: string, b: string): string
  {
    if StartsWith(b, "/") then b
    else if a == [] || a[|a| - 1] == '/' then a + b
    else a + "/" + b
  }
}

=== FILE: templaterepo.dfy ===
/**
  The template repository of `fondue/templates.py`: a listing of the
  template names stored under one package prefix (the engine sorts it; the
  model does not rely on the order), filtered by a key.  Loading
  and rendering a template is delegated to the template engine; the model
  keeps only the outcome of one render, as a `Rendering` value.
*/
module TemplateRepo {
  import opened PyStr

  /** What asking the template engine to render one named template yields. */
  datatype Rendering =
    | Rendered(text: string)   // the engine produced this text
    | NotLoadable              // the template could not be loaded (missing or malformed)
    | Failed                   // loading succeeded but rendering raised

  /**
    `get_templates(key)`: the names of the listing that start with `key`, in
    listing order.  The match is a raw string prefix with no separator boundary.
  */
  function GetTemplates(listing: seq<string>, key: string): (r: seq<string>)
    ensures forall n :: n in r <==> n in listing && StartsWith(n, key)
    ensures multiset(r) <= multiset(listing)
  {
    if listing == [] then []
    else
      assert listing == [listing[0]] + listing[1..];
      (if StartsWith(listing[0], key) then [listing[0]] else []) + GetTemplates(listing[1..], key)
  }

  /** Filtering distributes over concatenation, so the listing order is kept. */
  lemma {:induction false} GetTemplatesAppend(a: seq<string>, b: seq<string>, key: string)
    ensures GetTemplates(a + b, key) == GetTemplates(a, key) + GetTemplates(b, key)
  {
    if a == [] {
      assert a + b == b;
    } else {
      assert (a + b)[0] == a[0] && (a + b)[1..] == a[1..] + b;
      GetTemplatesAppend(a[1..], b, key);
    }
  }

  /** The empty key selects the whole listing, in order and with repeats. */
  lemma {:induction false} GetTemplatesEmptyKey(listing: seq<string>)
    ensures GetTemplates(listing, []) == listing
  {
    if listing != [] {
      GetTemplatesEmptyKey(listing[1..]);
    }
  }

  /**
    The key `default` also selects `default_x/...`: nothing requires a `/`
    after the key.
  */
  lemma GetTemplatesNoSeparatorBoundary(listing: seq<string>, suffix: string)
    requires "default_x/" + suffix in listing
    ensures "default_x/" + suffix in GetTemplates(listing, "default")
  {
    var n := "default_x/" + suffix;
    assert n[..|"default"|] == "default";
  }
}

=== FILE: validation.dfy ===
/**
  The two destination validators: `_validate_directory` of
  `fondue/core/init.py` (core mode) and of `fondue/project/init.py` (project
  mode).  Each either accepts the destination or names the conflict; the
  error message and the `EEXIST` error number are not modelled.
*/
module Validation {
  import opened FileSystem

  datatype Verdict = Accepted | NotADirectory | NotEmpty | NameCollision

  /** Core mode: the destination must be absent or an empty directory. */
  function ValidateCore(fs: FS, d: Path): (v: Verdict)
    ensures v == Accepted <==> d !in fs || (fs[d].Dir? && forall n :: d + [n] !in fs)
    ensures v == NotADirectory <==> d in fs && fs[d].File?
    ensures v == NotEmpty <==> d in fs && fs[d].Dir? && exists n :: d + [n] in fs
    ensures v != NameCollision
  {
    if d !in fs then Accepted
    else if fs[d].File? then NotADirectory
    else if Listdir(fs, d) != {} then NotEmpty
    else Accepted
  }

  /**
    Project mode: the destination must be absent, or a directory without an
    entry called `name`.
  */
  function ValidateProject(fs: FS, d: Path, name: string): (v: Verdict)
    ensures v == Accepted <==> d !in fs || (fs[d].Dir? && d + [name] !in fs)
    ensures v == NotADirectory <==> d in fs && fs[d].File?
    ensures v == NameCollision <==> d in fs && fs[d].Dir? && d + [name] in fs
    ensures v != NotEmpty
  {
    if d !in fs then Accepted
    else if fs[d].File? then NotADirectory
    else if name in Listdir(fs, d) then NameCollision
    else Accepted
  }

  /** Whatever the core validator accepts, the project validator accepts for every name. */
  lemma CoreStricterThanProject(fs: FS, d: Path, name: string)
    requires ValidateCore(fs, d) == Accepted
    ensures ValidateProject(fs, d, name) == Accepted
  {
  }

  /**
    A directory that holds other entries but none called `name` is accepted
    in project mode and rejected as not empty in core mode.
  */
  lemma ProjectAcceptsUnrelatedEntries(fs: FS, d: Path, name: string, other: string)
    requires d in fs && fs[d] == Dir
    requires d + [other] in fs && d + [name] !in fs
    ensures ValidateProject(fs, d, name) == Accepted
    ensures ValidateCore(fs, d) == NotEmpty
  {
  }
}

=== FILE: wrappers.dfy ===
/** The `Option`, `Result` and `Outcome` datatypes shared by the whole model. */
module Wrappers {

  /** An optional value; stands for Python's `None` versus a present value. */
  datatype Option<+T> = None | Some(value: T)

  /** Either a value or an error. */
  datatype Result<+R, +E> = Success(value: R) | Failure(error: E)

  /** Success without a value, or an error. */
  datatype Outcome<+E> = Pass | Fail(error: E)
}
